=== FILE: README.md ===
# RadiusPunisher in Dafny

A model of the core of `RadiusPunisher.php`, a load generator for RADIUS
servers. The model covers these parts:

- **The option table.** `RadiusPunisher::$options` is the table. The model covers
  the option strings and defaults that `parseOptions` collects from it and the
  precedence rules of `getOption` (module `CommandLine`).
- **The server pool.** The `factory` host loop builds it from `-h`, `-s`, `-t`
  and `-m` through `addServer` (module `ServerPool`, and the `Punisher` class).
- **The request scheduler.** Inside `send`, it interleaves Access and
  Accounting requests at the percentage `accessToAccountingRatio` (module
  `Scheduler`).
- **The per-cycle `$stats` array.** This is a PHP ordered array of completion
  codes, with the `debugStats` summary of it (module `Stats`).
- **The `startover` policy** (module `Restart`).
- **The worker.** The `Punisher` class holds the object's configuration fields.
  Its methods are `interrupt` and the `send` loop. `send` runs cycles of
  `for ($i = 1; …)` one after another inside `do { … } while (startover())`.

The worker does not call the RADIUS extension. Each iteration of the request
loop meets a `Reply` supplied from outside. A reply says one of these things:

- creating the request threw;
- `radius_send_request` returned `false` (counted under key 0);
- `radius_send_request` returned a reply code.

A reply also says whether SIGINT arrived during that iteration. If it did, the
handler `interrupt` has run before the loop guard is evaluated again.

`send` is observed over at most `horizon` cycles, and over the replies
supplied. Its result lists every completed cycle with these facts:

- the position of its first reply;
- its bound: `$requestsPerChild` as it was when the cycle began;
- the kinds of the requests it sent;
- its `$stats`.

The proved contracts say that the completed cycles tile the replies, and that
each cycle restarts the scheduler and the statistics. They also say how
`startover` decides whether another cycle begins, and that once an interrupt
has been seen, no later cycle sends anything.

The scheduler's float threshold is `$state`, which starts at
`$ratio = 100/(100-a)` and grows by the same amount after each Accounting
request. The model keeps `$ratio` and `$state` as exact reals
(`Scheduler.Ratio`, `Scheduler.Threshold`, and the source's loop as
`Scheduler.ThresholdRun`). It proves that the test `$ratio && $i < $state` is
an integer cross-multiplication. With `k` Accounting requests sent so far,
iteration `i` is an Access request exactly when both hold:

- `a` is neither 0 nor 100;
- `i·(100−a) < (k+1)·100`, with the comparison reversed when `100−a` is
  negative.

The request loop in `Punisher.Punisher.RunCycle` takes that integer form of the
branch. `Scheduler.ThresholdRunIsSchedule` proves that it picks the same kinds
as the source's loop over `$state`. From this the model proves the closed
forms:

- among the first `n` requests, `⌊n·(100−a)/100⌋` are Accounting requests;
- among the first `n` requests, `⌈n·a/100⌉` are Access requests;
- with `a = 50` the kinds alternate, starting with Access;
- with `a` outside 1..99, 100 included, every request is Accounting.

Two behaviours of the code are easy to misread. The model follows the code in both.

- **After an interrupt.** An interrupt does not end the worker. `interrupt`
  only sets `requestsPerChild` to -1. That makes the current cycle's guard false, but `startover()` is
  still consulted. With an interval other than 0 or unset, the `do … while`
  keeps starting cycles that send nothing. `Punisher.Punisher.Send` states
  exactly that: every cycle after an interrupted one is empty, and the run
  does not return unless `startover` says stop.
- **An unset interval.** `switch` compares loosely, so `null` takes the
  `case 0` branch, and an unset interval means a single cycle.

## Model

| member | source | states |
|---|---|---|
| CommandLine.LongSpec | RadiusPunisher.php:156-175 | the long option list has one entry per table entry, in table order: the long name followed by the `getopt` suffix of its argument kind ("" for a flag, ":" required, "::" optional with the fall-through) |
| CommandLine.CollectOptions | RadiusPunisher.php:152-180 | the `foreach` over the option table builds exactly the short option string, the long option list and the default map that the reference functions describe |
| CommandLine.DefaultsExactly | RadiusPunisher.php:177-179 | with distinct keys, a key has a collected default iff some table entry with that key has a `def`, and the default is that `def` |
| CommandLine.TableKeysDistinct | RadiusPunisher.php:14-82 | the short keys of the option table are pairwise distinct |
| CommandLine.TableShortSpec | RadiusPunisher.php:14-82 | the short option string for RadiusPunisher's own table is `h:s:t:m:c:r:i:a:vR:` |
| CommandLine.TableLongSpec | RadiusPunisher.php:14-82 | the long option list for RadiusPunisher's own table is `host: secret: timeout: maxtries: concurrency: requests: intervall: aratio: verbose realm:` |
| CommandLine.LongNameOf | RadiusPunisher.php:209 | with distinct keys, looking up the long name of entry i's key gives entry i's long name |
| CommandLine.LongName | RadiusPunisher.php:209 | a long name found belongs to a table entry with that key; none is found only if no entry has the key |
| CommandLine.GetOption | RadiusPunisher.php:207-219 | `getOption` fails (`array_merge` of a non-list) only when the option was given in both its short and long form |
| CommandLine.GivenBeatsDefault | RadiusPunisher.php:209-216 | an option given in either form yields a non-null value, and that value does not depend on the defaults |
| CommandLine.ShortFormOnly | RadiusPunisher.php:211-212 | only the short form given: its value is returned unchanged |
| CommandLine.LongFormOnly | RadiusPunisher.php:213-214 | only the long form given: its value is returned unchanged |
| CommandLine.NeitherForm | RadiusPunisher.php:215-218 | neither form given: the collected default, else `null` |
| CommandLine.BothFormsMerge | RadiusPunisher.php:209-210 | both forms given as lists: the result is the short-form items followed by the long-form items |
| CommandLine.AbsentGivesDefault | RadiusPunisher.php:14-82 | for RadiusPunisher's table, an option given in neither form yields its `def` entry, or `null` for `-s`, `-i`, `-v` |
| ServerPool.HostList | RadiusPunisher.php:329 | `(array) $srv` is empty for `null`, a one-element list for a scalar, the list itself for a repeated option |
| ServerPool.Pool | RadiusPunisher.php:329-335 | the host loop yields one endpoint per host |
| ServerPool.PoolFollowsHosts | RadiusPunisher.php:329-335 | endpoint i has host i of `(array) $srv`, in order |
| ServerPool.ScalarBroadcast | RadiusPunisher.php:330-332 | a scalar secret, timeout or max-tries applies to every endpoint |
| ServerPool.ListAligned | RadiusPunisher.php:330-332 | from a list of secrets, timeouts or max-tries, endpoint i gets element i, or element 0 when there is no element i, or null for an empty list |
| ServerPool.SingletonIsScalar | RadiusPunisher.php:330-332 | a one-element list behaves like the scalar it holds |
| ServerPool.FullListZips | RadiusPunisher.php:330-332 | a list of secrets, timeouts or max-tries at least as long as the hosts gives endpoint i its element i |
| ServerPool.TwoHostsOneSecret | RadiusPunisher.php:329-335 | two hosts with one `-s` value, given as a scalar or as a one-element list: both endpoints get that secret |
| Scheduler.ThresholdIsMultiple | RadiusPunisher.php:446-461 | `$state`, started at `$ratio` and raised by `$ratio` after each of k Accounting requests, is (k+1)·`$ratio` |
| Scheduler.EnabledThresholdTest | RadiusPunisher.php:446-456 | for a ∉ {0,100}, `$i < (k+1)·100/(100−a)` holds iff i·(100−a) < (k+1)·100, the other way round when 100−a < 0 |
| Scheduler.ChooseAccessIsThresholdTest | RadiusPunisher.php:446-456 | the source's test `$ratio && $i < $state`, with exact `$ratio` and `$state` after k Accounting requests, holds iff `ChooseAccess(a, i, k)` |
| Scheduler.ThresholdStepAgrees | RadiusPunisher.php:456-461 | one iteration of the source's branch, with `$state` at the threshold for k Accounting requests, appends `NextKind` and leaves the threshold for the new count |
| Scheduler.ThresholdRunIsSchedule | RadiusPunisher.php:446-461 | the source's loop over `$ratio` and `$state` chooses exactly the kinds of `Schedule`, and ends with `$state` at the threshold for its Accounting count |
| Scheduler.Schedule | RadiusPunisher.php:451-461 | the first n iterations produce n request kinds |
| Scheduler.Count | RadiusPunisher.php:456-461 | a count of one kind never exceeds the number of requests |
| Scheduler.CountSplit | RadiusPunisher.php:456-461 | every request is either Access or Accounting: the two counts add up to the number of requests |
| Scheduler.SchedulePrefix | RadiusPunisher.php:451-461 | a longer cycle starts with the kinds of a shorter one: iteration i depends only on the iterations before it |
| Scheduler.AllAccountingOutsideRange | RadiusPunisher.php:446-460 | for a percentage of 0, 100 or outside 0..100 every request is Accounting and none is Access |
| Scheduler.ChooseAtFloor | RadiusPunisher.php:456-461 | for 0 < a < 100, after n requests the Accounting count ⌊n(100−a)/100⌋ rises by at most one, and request n+1 is Access iff it does not rise |
| Scheduler.AccountingCountExact | RadiusPunisher.php:446-461 | for 0 < a < 100, the first n requests hold exactly ⌊n·(100−a)/100⌋ Accounting requests |
| Scheduler.AccessCountExact | RadiusPunisher.php:446-461 | for 0 < a < 100, the first n requests hold exactly ⌈n·a/100⌉ Access requests |
| Scheduler.KindAt | RadiusPunisher.php:456-461 | request j+1 is Accounting iff ⌊(j+1)(100−a)/100⌋ > ⌊j(100−a)/100⌋ |
| Scheduler.Alternation | RadiusPunisher.php:446-461 | at 50 percent the kinds alternate, odd iterations Access, even ones Accounting |
| Scheduler.FourAtHalf | RadiusPunisher.php:446-461 | at 50 percent the first four requests are Access, Accounting, Access, Accounting |
| Stats.RecordAddsOne | RadiusPunisher.php:463 | `++$stats[code]` keeps the array well formed, keeps the existing key order, adds one to that code's count only, and adds one to `array_sum` |
| Stats.FreshShape | RadiusPunisher.php:448 | `array(0, 0, 0, 0, 0, 0)` has keys 0..5, every count 0 and sum 0 |
| Stats.TallyShape | RadiusPunisher.php:448-463 | the statistics of any run of codes are well formed and list keys 0..5 first |
| Stats.TallyCounts | RadiusPunisher.php:448-463 | the count under each code is the number of sends that returned it; a key is present iff it is 0..5 or occurred |
| Stats.TallyTotal | RadiusPunisher.php:448-463 | `array_sum($stats)` is the number of requests sent |
| Stats.TallyOfCounts | RadiusPunisher.php:448-463 | the shape, counts, keys and sum of a cycle's statistics together |
| Stats.Summary | RadiusPunisher.php:273 | the summary starts with `requests completed=` and the sum of all counts |
| Stats.EntriesReport | RadiusPunisher.php:274-281 | the `foreach` yields a `failures=` entry iff key 0 is present, and an `rcN=` entry for exactly the nonzero codes with a nonzero count |
| Stats.SummaryReports | RadiusPunisher.php:272-281 | each kind of summary entry appears exactly for the counts the statistics hold |
| Stats.SummaryHead | RadiusPunisher.php:273-279 | when key 0 comes first, `failures=` follows `requests completed=` |
| Stats.CycleSummary | RadiusPunisher.php:271-281 | a cycle's summary reports the number of sends, the number that returned `false`, and every nonzero code with its nonzero occurrence count |
| Stats.DebugStats | RadiusPunisher.php:271-286 | a message is produced iff verbosity ≥ level, and it is the summary |
| Restart.Startover | RadiusPunisher.php:507-519 | stop iff the interval is unset or 0; restart at once iff it is -1; otherwise restart after `sleep` of that value |
| Punisher.FirstStop | RadiusPunisher.php:451-463 | the first reply that ends a cycle early: no earlier reply stops it |
| Punisher.CyclePlan | RadiusPunisher.php:451-467 | a cycle never sends more requests than there are replies |
| Punisher.BoundedCycle | RadiusPunisher.php:451 | with R > 0 and no interrupt or failure, a cycle sends exactly R requests and finishes |
| Punisher.UnboundedCycle | RadiusPunisher.php:451 | with R = 0 and no interrupt, the cycle never finishes on its own |
| Punisher.NegativeBoundSendsNothing | RadiusPunisher.php:451 | with `requestsPerChild` negative (after `interrupt`), a cycle sends nothing |
| Punisher.InterruptEndsCycle | RadiusPunisher.php:451-463 | an interrupt during iteration j+1 ends the cycle after that iteration's request |
| Punisher.ExhaustedCycle | RadiusPunisher.php:451 | a cycle whose guard still holds after the last supplied reply is still sending |
| Punisher.AbortedCycle | RadiusPunisher.php:456-461 | a failed request creation in iteration j+1 ends the worker before that request is sent |
| Punisher.PlanAnswered | RadiusPunisher.php:451-463 | every request a cycle sends was created and answered |
| Punisher.PlanTotal | RadiusPunisher.php:448-463 | `array_sum($stats)` of a cycle is the number of requests it sent |
| Punisher.CycleAppended | RadiusPunisher.php:444-469 | a completed cycle appended to the earlier ones keeps them tiling the replies, records the bound it started with, and keeps every cycle after an interrupt empty |
| Punisher.BoundsAppend | RadiusPunisher.php:413-416 | appending a cycle keeps the bounds right: `R0` until an interrupt, -1 in every later cycle |
| Punisher.FirstCycleSendsBound | RadiusPunisher.php:451 | in a run with R0 > 0 requests per child and no interrupt or failure among the first R0 replies, the first cycle sends exactly R0 requests |
| Punisher.Punisher.constructor | RadiusPunisher.php:103-138 | `new self` has 1000 requests per child, concurrency 10, verbosity 0, an unset interval, 50 percent Access and no servers |
| Punisher.Punisher.AddServer | RadiusPunisher.php:348-355 | appends one endpoint and leaves the earlier ones as they were |
| Punisher.Punisher.AddServers | RadiusPunisher.php:329-335 | the host loop appends exactly the pool, in host order |
| Punisher.Punisher.ConfigureServers | RadiusPunisher.php:322-335 | looks up `-h -s -t -m` and appends their pool; a failing `array_merge` adds nothing |
| Punisher.Punisher.Interrupt | RadiusPunisher.php:413-416 | `requestsPerChild` becomes -1; the Access percentage is unchanged |
| Punisher.Punisher.RunCycle | RadiusPunisher.php:446-467 | one loop cycle sends the requests of its plan, with kinds from a fresh scheduler and `$stats` the tally of their codes, with `array_sum($stats)` equal to the number of requests; `requestsPerChild` becomes -1 iff one of them was interrupted |
| Punisher.Punisher.Send | RadiusPunisher.php:443-471 | the completed cycles tile the replies. Each sends exactly as many requests as `CyclePlan` allows for the `requestsPerChild` it started with, which is the starting value until a cycle is interrupted and -1 afterwards. Each has a fresh schedule and fresh statistics summing to its request count; the run returns after exactly one cycle iff `startover` says stop, and never returns otherwise; an unfinished run is inside an aborted or still-running cycle, and a crash is reported only for a cycle that aborted before the horizon; after an interrupt every cycle is empty |

## Left out

- `fork`, `punish` and `wait` are left out. They create and reap child processes with `pcntl_*`, which is concurrency, so the model follows a single worker. The SIGINT handler set-up and `declare(ticks=1)` are also left out: an interrupt arrives as a flag on the reply of an iteration.
- `createAccessRequest` and `createAccountingRequest`, and every `radius_*` call, are left out. The model has no RADIUS extension, `rand`, `microtime` or `posix_getpid`. What the calls produce is the `Reply` input. A creation that throws ends the worker, because the exception leaves `send`.
- `sleep` in `startover` is left out: `Restart.Startover` returns the duration but nothing waits.
- `Restart.Startover` returns `RestartAfter(n)` for every n other than 0 and -1, n < -1 included. PHP's `sleep` with a negative argument does not wait. Under PHP 8 it throws a ValueError, which ends the worker; under earlier PHP it warns and `startover` returns true. Neither outcome is modelled for n < -1.
- A SIGINT arriving between cycles (during `debugStats`, `startover` or its `sleep`) is left out. In PHP, `interrupt` then runs through the ticks before the next cycle's guard is evaluated, so that cycle sends nothing. A `Reply` only carries a SIGINT that arrives during a request iteration, so `Punisher.Punisher.Send` does not cover this case.
- `debug`, `usage`, and the formatting of messages with `sprintf` and `fprintf` are left out as output. `Stats.DebugStats` gives the content of the `debugStats` line as a list of entries. `send` does not emit it.
- `getopt` itself is left out: its result is the `opts` input of `CommandLine.GetOption`.
- The branch for PHP before 5.3 is left out: the suffixes follow the 5.3-and-later path.
- The `$parsedOptions` cache is left out: the options are collected once.
- The required-option check in `parseOptions` (RadiusPunisher.php:188-194) is left out: every entry of the table has `opt` true, so it never fires.
- The `argc` usage exit in `factory` is left out.
- The assignments in `factory` to verbosity, requests, concurrency, interval and ratio (RadiusPunisher.php:300-320) are left out. They rely on PHP string-to-number conversion, `strlen` and `count`. The model sets those fields as integers, and takes an interval as `Unset` or `Seconds(n)`.
- `Scheduler.Ratio` and `Scheduler.Threshold` use exact reals in place of PHP's IEEE-754 doubles. The source builds `$state` by adding `$ratio` once per Accounting request, and the rounding error of those additions grows with their number. Near an exact boundary, where `i` equals `(k+1)·100/(100−a)`, the float may already differ. In long cycles (on the order of 10^7 Accounting requests, with `-r 0` or a large `-r`) the accumulated error can exceed the gap between `i` and the exact threshold away from boundaries too. For example, with a = 43 the model sends Access at i = 33883507 after 19313598 Accounting requests, where the double `$state` gives Accounting. In such cycles `Scheduler.Schedule`, `Scheduler.AccountingCountExact`, `Scheduler.AccessCountExact` and `Scheduler.KindAt` describe the exact-real loop, not PHP's floats.
- Integers are unbounded. PHP's 64-bit overflow of `$i` or of a count is not modelled.
- `Punisher.Punisher.Send` observes at most `horizon` cycles and the finite replies supplied. A cycle that has used up the replies while its guard holds is reported as still running, not followed further.
- The default arguments of `addServer` are left out. `factory` always passes all four arguments, so `AddServer` takes all four and a `null` is `None`.
- `CommandLine.GetOption` treats `array_merge` of anything but two lists as an error that ends the configuration. That is PHP 8's TypeError. Older PHP returns `null` with a warning; that variant is not modelled.
- `CommandLine.AbsentGivesDefault` is stated for RadiusPunisher's own option table only. `CommandLine.NeitherForm` covers any table.

=== FILE: commandline.dfy ===
/** The option table of RadiusPunisher, the option strings and defaults that
    `parseOptions` collects from it, and the precedence of `getOption`.
    The call to `getopt` itself is not modelled: its result is an input. */
module CommandLine {
  import opened PhpValues

  /** The `arg` entry of an option. */
  datatype ArgKind = Required | Optional | NoArg

  /** One entry of `RadiusPunisher::$options`: short key, long name, argument
      kind and the `def` entry if there is one. */
  datatype OptionSpec = OptionSpec(key: string, long: string, arg: ArgKind, def: Option<Scalar>)

  /** `RadiusPunisher::$options`, in its order. */
  const Table: seq<OptionSpec> := [
    OptionSpec("h", "host", Required, Some(Str("localhost"))),
    OptionSpec("s", "secret", Required, None),
    OptionSpec("t", "timeout", Required, Some(Int(1))),
    OptionSpec("m", "maxtries", Required, Some(Int(1))),
    OptionSpec("c", "concurrency", Required, Some(Int(10))),
    OptionSpec("r", "requests", Required, Some(Int(1000))),
    OptionSpec("i", "intervall", Required, None),
    OptionSpec("a", "aratio", Required, Some(Int(50))),
    OptionSpec("v", "verbose", NoArg, None),
    OptionSpec("R", "realm", Required, Some(Str("realm")))
  ]

  ghost predicate KeysDistinct(table: seq<OptionSpec>) {
    forall i, j :: 0 <= i < j < |table| ==> table[i].key != table[j].key
  }

  /** The `getopt` suffix for an argument kind (PHP 5.3 and later): a flag
      takes none, a required argument ":", an optional one "::" (the
      `optional` case falls through into `required`). */
  function Suffix(arg: ArgKind): string {
    match arg
    case NoArg => ""
    case Required => ":"
    case Optional => "::"
  }

  /** The short option string `$short`. */
  function ShortSpec(table: seq<OptionSpec>): string {
    if |table| == 0 then ""
    else ShortSpec(table[..|table| - 1]) + table[|table| - 1].key + Suffix(table[|table| - 1].arg)
  }

  /** The long option list `$long`: one entry per option, in table order. */
  function LongSpec(table: seq<OptionSpec>): (long: seq<string>)
    ensures |long| == |table|
    ensures forall i :: 0 <= i < |table| ==> long[i] == table[i].long + Suffix(table[i].arg)
  {
    if |table| == 0 then []
    else LongSpec(table[..|table| - 1]) + [table[|table| - 1].long + Suffix(table[|table| - 1].arg)]
  }

  /** `self::$defaultOptions`: the `def` entries, keyed by short key. */
  function DefaultsOf(table: seq<OptionSpec>): map<string, Scalar> {
    if |table| == 0 then map[]
    else
      var last := table[|table| - 1];
      var init := DefaultsOf(table[..|table| - 1]);
      if last.def.Some? then init[last.key := last.def.value] else init
  }

  /** The loop at the head of `parseOptions`: builds the short option string,
      the long option list and the defaults, one table entry at a time. */
  method CollectOptions(table: seq<OptionSpec>) returns (short: string, long: seq<string>, defaults: map<string, Scalar>)
    ensures short == ShortSpec(table)
    ensures long == LongSpec(table)
    ensures defaults == DefaultsOf(table)
  {
    short, long, defaults := "", [], map[];
    var i := 0;
    while i < |table|
      invariant 0 <= i <= |table|
      invariant short == ShortSpec(table[..i])
      invariant long == LongSpec(table[..i])
      invariant defaults == DefaultsOf(table[..i])
    {
      var o := table[i];
      assert table[..i + 1][..i] == table[..i];
      short := short + o.key + Suffix(o.arg);
      long := long + [o.long + Suffix(o.arg)];
      if o.def.Some? {
        defaults := defaults[o.key := o.def.value];
      }
      i := i + 1;
    }
    assert table[..|table|] == table;
  }

  /** Defaults exist exactly for the options whose entry has `def`, with
      that value. */
  lemma {:induction false} DefaultsExactly(table: seq<OptionSpec>)
    requires KeysDistinct(table)
    ensures forall k :: k in DefaultsOf(table) <==> exists i :: 0 <= i < |table| && table[i].key == k && table[i].def.Some?
    ensures forall i :: 0 <= i < |table| && table[i].def.Some? ==> DefaultsOf(table)[table[i].key] == table[i].def.value
  {
    if |table| > 0 {
      var init := table[..|table| - 1];
      var last := table[|table| - 1];
      DefaultsExactly(init);
      forall k ensures k in DefaultsOf(table) <==> exists i :: 0 <= i < |table| && table[i].key == k && table[i].def.Some? {
        if k in DefaultsOf(init) {
          var i :| 0 <= i < |init| && init[i].key == k && init[i].def.Some?;
          assert table[i] == init[i];
        }
        if exists i :: 0 <= i < |table| && table[i].key == k && table[i].def.Some? {
          var i :| 0 <= i < |table| && table[i].key == k && table[i].def.Some?;
          if i < |init| {
            assert init[i] == table[i];
          }
        }
      }
      forall i | 0 <= i < |table| && table[i].def.Some?
        ensures DefaultsOf(table)[table[i].key] == table[i].def.value
      {
        if i < |init| {
          assert init[i] == table[i];
          assert table[i].key != last.key;
        }
      }
    }
  }

  lemma TableKeysDistinct()
    ensures KeysDistinct(Table)
  {
  }

  /** The short option string handed to `getopt` for RadiusPunisher's table. */
  lemma TableShortSpec()
    ensures ShortSpec(Table) == "h:s:t:m:c:r:i:a:vR:"
  {
    assert ShortSpec(Table[..1]) == "h:";
    assert ShortSpec(Table[..2]) == "h:s:" by { assert Table[..2][..1] == Table[..1]; }
    assert ShortSpec(Table[..3]) == "h:s:t:" by { assert Table[..3][..2] == Table[..2]; }
    assert ShortSpec(Table[..4]) == "h:s:t:m:" by { assert Table[..4][..3] == Table[..3]; }
    assert ShortSpec(Table[..5]) == "h:s:t:m:c:" by { assert Table[..5][..4] == Table[..4]; }
    assert ShortSpec(Table[..6]) == "h:s:t:m:c:r:" by { assert Table[..6][..5] == Table[..5]; }
    assert ShortSpec(Table[..7]) == "h:s:t:m:c:r:i:" by { assert Table[..7][..6] == Table[..6]; }
    assert ShortSpec(Table[..8]) == "h:s:t:m:c:r:i:a:" by { assert Table[..8][..7] == Table[..7]; }
    assert ShortSpec(Table[..9]) == "h:s:t:m:c:r:i:a:v" by { assert Table[..9][..8] == Table[..8]; }
    assert Table[..10][..9] == Table[..9];
    assert Table[..10] == Table;
  }

  /** The long option list handed to `getopt` for RadiusPunisher's table. */
  lemma TableLongSpec()
    ensures LongSpec(Table) == ["host:", "secret:", "timeout:", "maxtries:", "concurrency:",
                                "requests:", "intervall:", "aratio:", "verbose", "realm:"]
  {
    var l := LongSpec(Table);
    assert l[0] == "host:" && l[1] == "secret:" && l[2] == "timeout:" && l[3] == "maxtries:";
    assert l[4] == "concurrency:" && l[5] == "requests:" && l[6] == "intervall:";
    assert l[7] == "aratio:" && l[8] == "verbose" && l[9] == "realm:";
  }

  /** With distinct keys, the long name of an entry is found by its key. */
  lemma LongNameOf(table: seq<OptionSpec>, i: nat)
    requires KeysDistinct(table) && i < |table|
    ensures LongName(table, table[i].key) == Some(table[i].long)
  {
  }

  /** What `getOption` returns: a value, `null`, or the error PHP raises when
      `array_merge` is given something other than two arrays. */
  datatype Lookup = Found(v: Value) | Null | MergeError

  /** The PHP value of a lookup that did not fail: the value, or `null`. */
  function AsValue(l: Lookup): (v: Option<Value>)
    ensures l.Found? <==> v.Some?
    ensures l.Found? ==> v.value == l.v
  {
    if l.Found? then Some(l.v) else None
  }

  /** `self::$options[$short]['long']`, if the key is in the table. */
  function LongName(table: seq<OptionSpec>, short: string): (r: Option<string>)
    ensures r.Some? ==> exists i :: 0 <= i < |table| && table[i].key == short && table[i].long == r.value
    ensures r.None? ==> forall i :: 0 <= i < |table| ==> table[i].key != short
  {
    if |table| == 0 then None
    else if table[0].key == short then Some(table[0].long)
    else
      var r := LongName(table[1..], short);
      assert forall i :: 1 <= i < |table| ==> table[i] == table[1..][i - 1];
      r
  }

  /** `getOption($short)` over the parsed options `opts` (keyed by short key
      or long name, as `getopt` returns them) and the collected `defaults`. */
  function GetOption(opts: map<string, Value>, table: seq<OptionSpec>, defaults: map<string, Scalar>, short: string): (r: Lookup)
    ensures r.MergeError? ==> short in opts && LongGiven(opts, table, short) != Null
  {
    var long := LongName(table, short);
    var longGiven := long.Some? && long.value in opts;
    if short in opts && longGiven then
      match (opts[short], opts[long.value])
      case (Many(a), Many(b)) => Found(Many(a + b))
      case _ => MergeError
    else if short in opts then Found(opts[short])
    else if longGiven then Found(opts[long.value])
    else if short in defaults then Found(One(defaults[short]))
    else Null
  }

  /** The value given on the command line in the long form, or `Null`. */
  function LongGiven(opts: map<string, Value>, table: seq<OptionSpec>, short: string): Lookup {
    var long := LongName(table, short);
    if long.Some? && long.value in opts then Found(opts[long.value]) else Null
  }

  /** A value given on the command line, in either form, always wins over the
      default: the result does not depend on the defaults at all. */
  lemma GivenBeatsDefault(opts: map<string, Value>, table: seq<OptionSpec>, d1: map<string, Scalar>, d2: map<string, Scalar>, short: string)
    requires short in opts || LongGiven(opts, table, short).Found?
    ensures GetOption(opts, table, d1, short) == GetOption(opts, table, d2, short)
    ensures GetOption(opts, table, d1, short) != Null
  {
  }

  /** Only the short form given: its value is returned as it is. */
  lemma ShortFormOnly(opts: map<string, Value>, table: seq<OptionSpec>, defaults: map<string, Scalar>, short: string)
    requires short in opts && LongGiven(opts, table, short) == Null
    ensures GetOption(opts, table, defaults, short) == Found(opts[short])
  {
  }

  /** Only the long form given: its value is returned as it is. */
  lemma LongFormOnly(opts: map<string, Value>, table: seq<OptionSpec>, defaults: map<string, Scalar>, short: string)
    requires short !in opts && LongGiven(opts, table, short).Found?
    ensures GetOption(opts, table, defaults, short) == LongGiven(opts, table, short)
  {
  }

  /** Neither form given: the collected default, or `null` without one. */
  lemma NeitherForm(opts: map<string, Value>, table: seq<OptionSpec>, defaults: map<string, Scalar>, short: string)
    requires short !in opts && LongGiven(opts, table, short) == Null
    ensures GetOption(opts, table, defaults, short) ==
      if short in defaults then Found(One(defaults[short])) else Null
  {
  }

  /** Both forms given as lists: the short-form items, then the long-form
      items (`array_merge`). */
  lemma BothFormsMerge(opts: map<string, Value>, table: seq<OptionSpec>, defaults: map<string, Scalar>, short: string)
    requires short in opts && LongGiven(opts, table, short).Found?
    requires opts[short].Many? && LongGiven(opts, table, short).v.Many?
    ensures var r := GetOption(opts, table, defaults, short);
      r.Found? && r.v.Many? &&
      |r.v.xs| == |opts[short].xs| + |LongGiven(opts, table, short).v.xs| &&
      r.v.xs[..|opts[short].xs|] == opts[short].xs &&
      r.v.xs[|opts[short].xs|..] == LongGiven(opts, table, short).v.xs
  {
  }

  /** With RadiusPunisher's table and an option given in neither form,
      `getOption` returns that option's `def` entry, or `null` when it has
      none (`-s`, `-i`, `-v`). */
  lemma AbsentGivesDefault(opts: map<string, Value>, i: nat)
    requires i < |Table|
    requires Table[i].key !in opts && Table[i].long !in opts
    ensures GetOption(opts, Table, DefaultsOf(Table), Table[i].key) ==
      if Table[i].def.Some? then Found(One(Table[i].def.value)) else Null
  {
    TableKeysDistinct();
    LongNameOf(Table, i);
    DefaultsExactly(Table);
  }
}

=== FILE: phpvalues.dfy ===
/** Values as the command-line layer of RadiusPunisher hands them around. */
module PhpValues {

  /** A PHP value that may be `null`. */
  datatype Option<+T> = None | Some(value: T)

  /** A scalar option value: a string from the command line, an integer
      default from the option table, or `false` for a flag without argument. */
  datatype Scalar = Str(s: string) | Int(i: int) | False

  /** An option value: one occurrence, or a list when the option was repeated. */
  datatype Value = One(x: Scalar) | Many(xs: seq<Scalar>)
}

=== FILE: punisher.dfy ===
/** The `RadiusPunisher` object: its configuration fields, the server list
    that `factory` and `addServer` build, `interrupt`, and the worker's
    `send` loop (one loop cycle after another, as `startover` decides).

    The RADIUS extension is not called: each iteration of the request loop
    meets a `Reply` supplied from outside, which says whether the request
    could be created, what `radius_send_request` returned, and whether
    SIGINT (whose handler is `interrupt`) arrived during that iteration. */
module Punisher {
  import opened PhpValues
  import opened CommandLine
  import opened ServerPool
  import opened Scheduler
  import opened Stats
  import opened Restart

  /** What `radius_send_request` returns: `false`, or the code of the reply. */
  datatype SendResult = SendFailed | Response(code: nat)

  /** The `$stats` key a send is counted under: PHP turns the key `false` into 0. */
  function StatKey(r: SendResult): nat {
    match r
    case SendFailed => 0
    case Response(c) => c
  }

  /** One iteration of the request loop as the outside world shapes it:
      creating the request threw (`radius_*_open` or `radius_create_request`
      failed), or the request was sent with `result`; `interrupted` says that
      SIGINT arrived during the iteration, so that `interrupt` has run before
      the loop guard is evaluated again. */
  datatype Reply = CreateFailed | Answered(result: SendResult, interrupted: bool)

  /** A reply after which the cycle issues no further request. */
  predicate Stops(r: Reply) {
    r.CreateFailed? || r.interrupted
  }

  /** None of the first `n` replies stops a cycle. */
  predicate Quiet(replies: seq<Reply>, n: nat)
    requires n <= |replies|
  {
    forall j :: 0 <= j < n ==> !Stops(replies[j])
  }

  /** The position of the first reply that stops a cycle; |replies| if none. */
  function FirstStop(replies: seq<Reply>): (e: nat)
    ensures e <= |replies|
    ensures Quiet(replies, e)
    ensures e < |replies| ==> Stops(replies[e])
  {
    if |replies| == 0 then 0
    else if Stops(replies[0]) then 0
    else
      var e := FirstStop(replies[1..]);
      assert forall j :: 1 <= j < 1 + e ==> replies[j] == replies[1..][j - 1];
      1 + e
  }

  /** The `$stats` keys of the requests that were sent, in order. */
  function Codes(replies: seq<Reply>): (codes: seq<nat>)
    ensures |codes| <= |replies|
  {
    if |replies| == 0 then []
    else
      var last := replies[|replies| - 1];
      Codes(replies[..|replies| - 1]) + (if last.Answered? then [StatKey(last.result)] else [])
  }

  /** SIGINT arrived during one of these iterations. */
  predicate Interrupted(replies: seq<Reply>) {
    exists j :: 0 <= j < |replies| && replies[j].Answered? && replies[j].interrupted
  }

  /** How a loop cycle ends: its guard became false, creating a request threw,
      or the replies ran out while the guard still held (the cycle is still
      going on beyond what is observed). */
  datatype CycleEnd = Finished | Aborted | Starved

  /** How many requests a cycle sends and how it ends. */
  datatype Plan = Plan(length: nat, end: CycleEnd)

  /** The reference for one loop cycle that starts with `requestsPerChild == R`:
      iterations 1, 2, ... run while `R == 0 || i <= R`; an interrupt ends the
      cycle after the request of its iteration, a failed creation aborts it
      before that request is sent. */
  function CyclePlan(R: int, replies: seq<Reply>): (p: Plan)
    ensures p.length <= |replies|
  {
    var e := FirstStop(replies);
    if R < 0 then Plan(0, Finished)
    else if e < |replies| && (R == 0 || e < R) then
      if replies[e].CreateFailed? then Plan(e, Aborted) else Plan(e + 1, Finished)
    else if R == 0 then Plan(|replies|, Starved)
    else if R <= |replies| then Plan(R, Finished)
    else Plan(|replies|, Starved)
  }

  /** With `requestsPerChild = R > 0` and nothing stopping it, a cycle sends
      exactly R requests and then its guard becomes false. */
  lemma BoundedCycle(R: int, replies: seq<Reply>)
    requires 0 < R <= |replies|
    requires Quiet(replies, R)
    ensures CyclePlan(R, replies) == Plan(R, Finished)
  {
  }

  /** With `requestsPerChild = 0` and no interrupt, the guard never becomes
      false: however many requests have been answered, the cycle goes on. */
  lemma UnboundedCycle(replies: seq<Reply>)
    requires Quiet(replies, |replies|)
    ensures CyclePlan(0, replies) == Plan(|replies|, Starved)
  {
  }

  /** Once `requestsPerChild` is negative (-1 after `interrupt`), a cycle
      sends nothing. */
  lemma NegativeBoundSendsNothing(R: int, replies: seq<Reply>)
    requires R < 0
    ensures CyclePlan(R, replies) == Plan(0, Finished)
  {
  }

  /** An interrupt during iteration j+1 of a cycle that had not reached its
      bound ends it right after that iteration's request. */
  lemma InterruptEndsCycle(R: int, replies: seq<Reply>, j: nat)
    requires 0 <= R && (R == 0 || j < R)
    requires j < |replies| && replies[j].Answered? && replies[j].interrupted
    requires Quiet(replies, j)
    ensures CyclePlan(R, replies) == Plan(j + 1, Finished)
  {
    assert FirstStop(replies) == j;
  }

  /** A cycle that used up all replies with its guard still true. */
  lemma ExhaustedCycle(R: int, replies: seq<Reply>)
    requires R == 0 || R > |replies|
    requires Quiet(replies, |replies|)
    ensures CyclePlan(R, replies) == Plan(|replies|, Starved)
  {
  }

  /** A cycle whose iteration j+1 could not create its request. */
  lemma AbortedCycle(R: int, replies: seq<Reply>, j: nat)
    requires 0 <= R && (R == 0 || j < R)
    requires j < |replies| && replies[j].CreateFailed?
    requires Quiet(replies, j)
    ensures CyclePlan(R, replies) == Plan(j, Aborted)
  {
    assert FirstStop(replies) == j;
  }

  /** The first `n` iterations of a cycle sent `kinds`, `accounting` of them
      Accounting requests, and left `stats` behind. */
  ghost predicate Progress(a: int, replies: seq<Reply>, n: nat, kinds: seq<Kind>, accounting: nat, stats: Tally) {
    && n <= |replies| && |kinds| == n
    && kinds == Schedule(a, n)
    && accounting == Count(kinds, Accounting)
    && stats == TallyOf(Codes(replies[..n]))
  }

  lemma ProgressStart(a: int, replies: seq<Reply>)
    ensures Progress(a, replies, 0, [], 0, Fresh())
  {
    assert replies[..0] == [];
  }

  lemma ProgressStep(a: int, replies: seq<Reply>, n: nat, kinds: seq<Kind>, accounting: nat, stats: Tally,
                     kinds': seq<Kind>, accounting': nat, stats': Tally)
    requires Progress(a, replies, n, kinds, accounting, stats)
    requires n < |replies| && replies[n].Answered?
    requires kinds' == kinds + [NextKind(a, n + 1, accounting)]
    requires accounting' == accounting + (if NextKind(a, n + 1, accounting) == Accounting then 1 else 0)
    requires stats' == Record(stats, StatKey(replies[n].result))
    ensures Progress(a, replies, n + 1, kinds', accounting', stats')
  {
    StatsStep(replies, n, stats);
    ScheduleStep(a, kinds, NextKind(a, n + 1, accounting));
  }

  lemma StatsStep(replies: seq<Reply>, n: nat, stats: Tally)
    requires n < |replies| && replies[n].Answered?
    requires stats == TallyOf(Codes(replies[..n]))
    ensures Record(stats, StatKey(replies[n].result)) == TallyOf(Codes(replies[..n + 1]))
  {
    CodesStep(replies, n + 1);
    TallyStep(Codes(replies[..n]), StatKey(replies[n].result));
  }

  lemma QuietStep(replies: seq<Reply>, n: nat)
    requires n < |replies| && Quiet(replies, n) && !Stops(replies[n])
    ensures Quiet(replies, n + 1)
  {
  }

  lemma CodesStep(replies: seq<Reply>, i: nat)
    requires 0 < i <= |replies| && replies[i - 1].Answered?
    ensures Codes(replies[..i]) == Codes(replies[..i - 1]) + [StatKey(replies[i - 1].result)]
  {
    assert replies[..i][..i - 1] == replies[..i - 1];
  }

  lemma TallyStep(codes: seq<nat>, x: nat)
    ensures TallyOf(codes + [x]) == Record(TallyOf(codes), x)
  {
    assert (codes + [x])[..|codes|] == codes;
  }

  lemma InterruptedStep(replies: seq<Reply>, i: nat)
    requires 0 < i <= |replies|
    ensures Interrupted(replies[..i]) <==>
      Interrupted(replies[..i - 1]) || (replies[i - 1].Answered? && replies[i - 1].interrupted)
  {
    if replies[i - 1].Answered? && replies[i - 1].interrupted {
      assert replies[..i][i - 1] == replies[i - 1];
    }
    if Interrupted(replies[..i - 1]) {
      var j :| 0 <= j < i - 1 && replies[..i - 1][j].Answered? && replies[..i - 1][j].interrupted;
      assert replies[..i][j] == replies[..i - 1][j];
    }
  }

  lemma ScheduleStep(a: int, kinds: seq<Kind>, kind: Kind)
    requires kinds == Schedule(a, |kinds|)
    requires kind == NextKind(a, |kinds| + 1, Count(kinds, Accounting))
    ensures kinds + [kind] == Schedule(a, |kinds| + 1)
    ensures Count(kinds + [kind], Accounting) == Count(kinds, Accounting) + (if kind == Accounting then 1 else 0)
  {
    assert (kinds + [kind])[..|kinds|] == kinds;
  }

  /** The part of `CycleState` about interrupts and the bound. */
  ghost predicate Flags(R: int, replies: seq<Reply>, i: nat, intr: bool, rpc: int)
    requires 1 <= i <= |replies| + 1
  {
    && (i >= 2 ==> Quiet(replies, i - 2) && replies[i - 2].Answered?)
    && intr == Interrupted(replies[..i - 1])
    && (intr <==> i >= 2 && replies[i - 2].interrupted)
    && rpc == (if intr then -1 else R)
    && (i > 1 ==> R == 0 || i - 2 < R)
  }

  /** The state of a loop cycle before iteration `i`, for a cycle that
      started with `requestsPerChild == R`; `intr` says SIGINT has arrived,
      `rpc` is the current value of `requestsPerChild`. */
  ghost predicate CycleState(a: int, R: int, replies: seq<Reply>, i: nat, kinds: seq<Kind>, accounting: nat,
                             stats: Tally, intr: bool, rpc: int) {
    && 1 <= i <= |replies| + 1
    && Progress(a, replies, i - 1, kinds, accounting, stats)
    && Flags(R, replies, i, intr, rpc)
  }

  lemma CycleStateStart(a: int, R: int, replies: seq<Reply>)
    ensures CycleState(a, R, replies, 1, [], 0, Fresh(), false, R)
  {
    ProgressStart(a, replies);
    assert replies[..0] == [];
  }

  lemma FlagsStep(R: int, replies: seq<Reply>, i: nat, rpc: int)
    requires 1 <= i <= |replies| && Flags(R, replies, i, false, rpc)
    requires R == 0 || i <= R
    requires replies[i - 1].Answered?
    ensures Flags(R, replies, i + 1, replies[i - 1].interrupted, if replies[i - 1].interrupted then -1 else R)
  {
    InterruptedStep(replies, i);
    if i >= 2 {
      QuietStep(replies, i - 2);
    }
  }

  /** Inside the loop no interrupt has arrived yet, so the guard speaks
      about the bound the cycle started with. */
  lemma CycleStateGuard(a: int, R: int, replies: seq<Reply>, i: nat, kinds: seq<Kind>, accounting: nat,
                        stats: Tally, intr: bool, rpc: int)
    requires CycleState(a, R, replies, i, kinds, accounting, stats, intr, rpc)
    requires rpc == 0 || i <= rpc
    ensures !intr && rpc == R && (R == 0 || i <= R) && i - 1 <= |replies|
  {
  }

  /** Iteration `i` sends its request and records its reply; the primed
      parameters are the state after it. */
  lemma CycleStateStep(a: int, R: int, replies: seq<Reply>, i: nat, kinds: seq<Kind>, accounting: nat,
                       stats: Tally, rpc: int, kinds': seq<Kind>, accounting': nat, stats': Tally,
                       intr': bool, rpc': int)
    requires CycleState(a, R, replies, i, kinds, accounting, stats, false, rpc)
    requires R == 0 || i <= R
    requires i - 1 < |replies| && replies[i - 1].Answered?
    requires kinds' == kinds + [NextKind(a, i, accounting)]
    requires accounting' == accounting + (if NextKind(a, i, accounting) == Accounting then 1 else 0)
    requires stats' == Record(stats, StatKey(replies[i - 1].result))
    requires intr' == replies[i - 1].interrupted
    requires rpc' == if intr' then -1 else R
    ensures CycleState(a, R, replies, i + 1, kinds', accounting', stats', intr', rpc')
  {
    ProgressStep(a, replies, i - 1, kinds, accounting, stats, kinds', accounting', stats');
    FlagsStep(R, replies, i, rpc);
  }

  /** What a cycle reports once it has stopped before iteration `i`. */
  ghost predicate CycleOutcome(a: int, R: int, replies: seq<Reply>, kinds: seq<Kind>, stats: Tally,
                               end: CycleEnd, rpc: int) {
    && CyclePlan(R, replies) == Plan(|kinds|, end)
    && kinds == Schedule(a, |kinds|)
    && stats == TallyOf(Codes(replies[..|kinds|]))
    && Total(stats) == |kinds|
    && rpc == (if Interrupted(replies[..|kinds|]) then -1 else R)
    && (end != Finished ==> rpc == R)
  }

  /** Every request a cycle sends was created and answered. */
  lemma PlanAnswered(R: int, replies: seq<Reply>)
    ensures forall j :: 0 <= j < CyclePlan(R, replies).length ==> replies[j].Answered?
  {
  }

  /** Answered replies each contribute one code. */
  lemma {:induction false} CodesOfAnswered(replies: seq<Reply>)
    requires forall j :: 0 <= j < |replies| ==> replies[j].Answered?
    ensures |Codes(replies)| == |replies|
  {
    if |replies| > 0 {
      var init := replies[..|replies| - 1];
      assert forall j :: 0 <= j < |init| ==> init[j] == replies[j];
      CodesOfAnswered(init);
    }
  }

  /** `array_sum($stats)` of a cycle is the number of requests it sent. */
  lemma PlanTotal(R: int, replies: seq<Reply>, stats: Tally)
    requires stats == TallyOf(Codes(replies[..CyclePlan(R, replies).length]))
    ensures Total(stats) == CyclePlan(R, replies).length
  {
    var n := CyclePlan(R, replies).length;
    PlanAnswered(R, replies);
    var sent := replies[..n];
    assert forall j :: 0 <= j < |sent| ==> sent[j] == replies[j];
    CodesOfAnswered(sent);
    TallyTotal(Codes(sent));
  }

  /** The guard became false before iteration `i`. */
  lemma FlagsDone(R: int, replies: seq<Reply>, i: nat, intr: bool, rpc: int)
    requires 1 <= i <= |replies| + 1 && Flags(R, replies, i, intr, rpc)
    requires !(rpc == 0 || i <= rpc)
    ensures CyclePlan(R, replies) == Plan(i - 1, Finished)
  {
    if intr {
      InterruptEndsCycle(R, replies, i - 2);
    } else if i > 1 {
      QuietStep(replies, i - 2);
      BoundedCycle(R, replies);
    } else {
      NegativeBoundSendsNothing(R, replies);
    }
  }

  /** The guard became false: the cycle finished after `i - 1` requests. */
  lemma CycleStateDone(a: int, R: int, replies: seq<Reply>, i: nat, kinds: seq<Kind>, accounting: nat,
                       stats: Tally, intr: bool, rpc: int)
    requires CycleState(a, R, replies, i, kinds, accounting, stats, intr, rpc)
    requires !(rpc == 0 || i <= rpc)
    ensures CycleOutcome(a, R, replies, kinds, stats, Finished, rpc)
  {
    FlagsDone(R, replies, i, intr, rpc);
    PlanTotal(R, replies, stats);
  }

  /** The replies ran out with the guard still true. */
  lemma CycleStateStarved(a: int, R: int, replies: seq<Reply>, i: nat, kinds: seq<Kind>, accounting: nat,
                          stats: Tally, intr: bool, rpc: int)
    requires CycleState(a, R, replies, i, kinds, accounting, stats, intr, rpc)
    requires rpc == 0 || i <= rpc
    requires i - 1 == |replies|
    ensures CycleOutcome(a, R, replies, kinds, stats, Starved, rpc)
  {
    ExhaustedCycle(R, replies);
    PlanTotal(R, replies, stats);
  }

  /** Iteration `i` could not create its request. */
  lemma CycleStateAborted(a: int, R: int, replies: seq<Reply>, i: nat, kinds: seq<Kind>, accounting: nat,
                          stats: Tally, intr: bool, rpc: int)
    requires CycleState(a, R, replies, i, kinds, accounting, stats, intr, rpc)
    requires rpc == 0 || i <= rpc
    requires i - 1 < |replies| && replies[i - 1].CreateFailed?
    ensures CycleOutcome(a, R, replies, kinds, stats, Aborted, rpc)
  {
    AbortedCycle(R, replies, i - 1);
    PlanTotal(R, replies, stats);
  }

  /** What one completed loop cycle of `send` produced: the position of its
      first reply, the value of `requestsPerChild` when it started, the kinds
      of the requests it sent, and its `$stats`. */
  datatype CycleReport = CycleReport(start: nat, bound: int, kinds: seq<Kind>, stats: Tally)

  /** How a run of `send` ends: it returned (`startover` said stop), it
      threw, or it was still running when the observation ended. */
  datatype RunEnd = Returned | Crashed | Running

  predicate Within(replies: seq<Reply>, r: CycleReport) {
    r.start + |r.kinds| <= |replies|
  }

  /** The replies a completed cycle consumed. */
  function Segment(replies: seq<Reply>, r: CycleReport): seq<Reply>
    requires Within(replies, r)
  {
    replies[r.start..r.start + |r.kinds|]
  }

  /** The position of the first reply after the given cycles. */
  function Next(cycles: seq<CycleReport>): nat {
    if |cycles| == 0 then 0 else cycles[|cycles| - 1].start + |cycles[|cycles| - 1].kinds|
  }

  /** A completed cycle consumed the replies from its start on, exactly as
      many as the loop bound it started with lets it send; its kinds are the
      scheduler's sequence for percentage `a` from a fresh start, and its
      statistics are the tally of the codes of those replies, summing to the
      number of requests. */
  ghost predicate Reports(replies: seq<Reply>, a: int, r: CycleReport) {
    && Within(replies, r)
    && CyclePlan(r.bound, replies[r.start..]) == Plan(|r.kinds|, Finished)
    && r.kinds == Schedule(a, |r.kinds|)
    && r.stats == TallyOf(Codes(Segment(replies, r)))
    && Total(r.stats) == |r.kinds|
  }

  /** Each cycle starts where the previous one ended, the first at 0. */
  predicate Chained(cycles: seq<CycleReport>) {
    && (|cycles| > 0 ==> cycles[0].start == 0)
    && (forall c :: 0 < c < |cycles| ==> cycles[c].start == cycles[c - 1].start + |cycles[c - 1].kinds|)
  }

  /** The completed cycles consume consecutive stretches of the replies,
      starting with the first; each cycle restarts the scheduler (percentage
      `a`) and the statistics. */
  ghost predicate Tiled(replies: seq<Reply>, a: int, cycles: seq<CycleReport>) {
    Chained(cycles) && forall c :: 0 <= c < |cycles| ==> Reports(replies, a, cycles[c])
  }

  lemma ChainedAppend(cycles: seq<CycleReport>, r: CycleReport)
    requires Chained(cycles) && r.start == Next(cycles)
    ensures Chained(cycles + [r])
    ensures Next(cycles + [r]) == r.start + |r.kinds|
  {
    var cs := cycles + [r];
    forall c | 0 < c < |cs|
      ensures cs[c].start == cs[c - 1].start + |cs[c - 1].kinds|
    {
      assert cs[c - 1] == if c - 1 < |cycles| then cycles[c - 1] else r;
      if c < |cycles| {
        assert cs[c] == cycles[c];
      }
    }
  }

  lemma ReportsAppend(replies: seq<Reply>, a: int, cycles: seq<CycleReport>, r: CycleReport)
    requires forall c :: 0 <= c < |cycles| ==> Reports(replies, a, cycles[c])
    requires Reports(replies, a, r)
    ensures forall c :: 0 <= c < |cycles + [r]| ==> Reports(replies, a, (cycles + [r])[c])
  {
    var cs := cycles + [r];
    forall c | 0 <= c < |cs| ensures Reports(replies, a, cs[c]) {
      if c < |cycles| {
        assert cs[c] == cycles[c];
      }
    }
  }

  lemma TiledAppend(replies: seq<Reply>, a: int, cycles: seq<CycleReport>, r: CycleReport)
    requires Tiled(replies, a, cycles)
    requires r.start == Next(cycles) && Reports(replies, a, r)
    ensures Tiled(replies, a, cycles + [r])
    ensures Next(cycles + [r]) == r.start + |r.kinds|
  {
    ChainedAppend(cycles, r);
    ReportsAppend(replies, a, cycles, r);
  }

  /** Interrupts as the completed cycles saw them, with `R0` the value of
      `requestsPerChild` when `send` started and `R` its current value: it is
      -1 once any cycle was interrupted, and every cycle after an interrupt,
      or every cycle at all if R0 was negative, sent nothing. */
  ghost predicate Silenced(replies: seq<Reply>, R0: int, R: int, cycles: seq<CycleReport>)
    requires forall c :: 0 <= c < |cycles| ==> Within(replies, cycles[c])
  {
    && (R == -1 || R == R0)
    && (forall c :: 0 <= c < |cycles| && Interrupted(Segment(replies, cycles[c])) ==> R == -1)
    && (forall c, c' :: 0 <= c < c' < |cycles| && Interrupted(Segment(replies, cycles[c])) ==> |cycles[c'].kinds| == 0)
    && (R0 < 0 ==> forall c :: 0 <= c < |cycles| ==> |cycles[c].kinds| == 0)
  }

  lemma SilencedAppend(replies: seq<Reply>, R0: int, R: int, cycles: seq<CycleReport>, r: CycleReport, R': int)
    requires forall c :: 0 <= c < |cycles| ==> Within(replies, cycles[c])
    requires Silenced(replies, R0, R, cycles)
    requires Within(replies, r)
    requires R < 0 ==> |r.kinds| == 0
    requires R' == if Interrupted(Segment(replies, r)) then -1 else R
    ensures forall c :: 0 <= c < |cycles + [r]| ==> Within(replies, (cycles + [r])[c])
    ensures Silenced(replies, R0, R', cycles + [r])
  {
    var cs := cycles + [r];
    assert forall c :: 0 <= c < |cycles| ==> cs[c] == cycles[c];
  }

  /** The loop bound each completed cycle started with: `R0`, the value of
      `requestsPerChild` when `send` started, until a cycle is interrupted,
      and -1 in every cycle after that; `R`, the current value, differs from
      `R0` only after an interrupt. */
  ghost predicate Bounds(replies: seq<Reply>, R0: int, R: int, cycles: seq<CycleReport>)
    requires forall c :: 0 <= c < |cycles| ==> Within(replies, cycles[c])
  {
    SilentAfter(replies, cycles) && FullBefore(replies, R0, cycles) && Current(replies, R0, R, cycles)
  }

  /** Every cycle after an interrupted one started with bound -1. */
  ghost predicate SilentAfter(replies: seq<Reply>, cycles: seq<CycleReport>)
    requires forall c :: 0 <= c < |cycles| ==> Within(replies, cycles[c])
  {
    forall c, c' :: 0 <= c < c' < |cycles| && Interrupted(Segment(replies, cycles[c])) ==> cycles[c'].bound == -1
  }

  /** A cycle started with a bound other than `R0` only after an interrupt. */
  ghost predicate FullBefore(replies: seq<Reply>, R0: int, cycles: seq<CycleReport>)
    requires forall c :: 0 <= c < |cycles| ==> Within(replies, cycles[c])
  {
    forall c :: 0 <= c < |cycles| && cycles[c].bound != R0 ==>
      exists c' :: 0 <= c' < c && Interrupted(Segment(replies, cycles[c']))
  }

  /** `requestsPerChild` differs from `R0` only after an interrupt. */
  ghost predicate Current(replies: seq<Reply>, R0: int, R: int, cycles: seq<CycleReport>)
    requires forall c :: 0 <= c < |cycles| ==> Within(replies, cycles[c])
  {
    R != R0 ==> exists c :: 0 <= c < |cycles| && Interrupted(Segment(replies, cycles[c]))
  }

  lemma SilentAfterAppend(replies: seq<Reply>, R0: int, R: int, cycles: seq<CycleReport>, r: CycleReport)
    requires forall c :: 0 <= c < |cycles + [r]| ==> Within(replies, (cycles + [r])[c])
    requires forall c :: 0 <= c < |cycles| ==> Within(replies, cycles[c])
    requires Silenced(replies, R0, R, cycles) && SilentAfter(replies, cycles)
    requires r.bound == R
    ensures SilentAfter(replies, cycles + [r])
  {
    var cs := cycles + [r];
    forall c, c' | 0 <= c < c' < |cs| && Interrupted(Segment(replies, cs[c]))
      ensures cs[c'].bound == -1
    {
      assert cs[c] == cycles[c];
      if c' < |cycles| {
        assert cs[c'] == cycles[c'];
      }
    }
  }

  lemma FullBeforeAppend(replies: seq<Reply>, R0: int, R: int, cycles: seq<CycleReport>, r: CycleReport)
    requires forall c :: 0 <= c < |cycles + [r]| ==> Within(replies, (cycles + [r])[c])
    requires forall c :: 0 <= c < |cycles| ==> Within(replies, cycles[c])
    requires FullBefore(replies, R0, cycles) && Current(replies, R0, R, cycles)
    requires r.bound == R
    ensures FullBefore(replies, R0, cycles + [r])
  {
    var cs := cycles + [r];
    forall c | 0 <= c < |cs| && cs[c].bound != R0
      ensures exists c' :: 0 <= c' < c && Interrupted(Segment(replies, cs[c']))
    {
      if c < |cycles| {
        assert cs[c] == cycles[c];
        var c' :| 0 <= c' < c && Interrupted(Segment(replies, cycles[c']));
        assert cs[c'] == cycles[c'];
      } else {
        var c' :| 0 <= c' < |cycles| && Interrupted(Segment(replies, cycles[c']));
        assert cs[c'] == cycles[c'];
      }
    }
  }

  lemma CurrentAppend(replies: seq<Reply>, R0: int, R: int, cycles: seq<CycleReport>, r: CycleReport, R': int)
    requires forall c :: 0 <= c < |cycles + [r]| ==> Within(replies, (cycles + [r])[c])
    requires forall c :: 0 <= c < |cycles| ==> Within(replies, cycles[c])
    requires Current(replies, R0, R, cycles) && Within(replies, r)
    requires R' == if Interrupted(Segment(replies, r)) then -1 else R
    ensures Current(replies, R0, R', cycles + [r])
  {
    var cs := cycles + [r];
    if R' != R0 {
      if Interrupted(Segment(replies, r)) {
        assert cs[|cycles|] == r;
      } else {
        var c :| 0 <= c < |cycles| && Interrupted(Segment(replies, cycles[c]));
        assert cs[c] == cycles[c];
      }
    }
  }

  lemma BoundsAppend(replies: seq<Reply>, R0: int, R: int, cycles: seq<CycleReport>, r: CycleReport, R': int)
    requires forall c :: 0 <= c < |cycles| ==> Within(replies, cycles[c])
    requires Silenced(replies, R0, R, cycles) && Bounds(replies, R0, R, cycles)
    requires Within(replies, r) && r.bound == R
    requires R' == if Interrupted(Segment(replies, r)) then -1 else R
    ensures forall c :: 0 <= c < |cycles + [r]| ==> Within(replies, (cycles + [r])[c])
    ensures Bounds(replies, R0, R', cycles + [r])
  {
    var cs := cycles + [r];
    assert forall c :: 0 <= c < |cycles + [r]| ==> cs[c] == if c < |cycles| then cycles[c] else r;
    SilentAfterAppend(replies, R0, R, cycles, r);
    FullBeforeAppend(replies, R0, R, cycles, r);
    CurrentAppend(replies, R0, R, cycles, r, R');
  }

  /** A loop cycle that finished is appended to the completed ones; `R` is
      `requestsPerChild` when it started and `R'` when it finished. */
  lemma CycleAppended(replies: seq<Reply>, a: int, R0: int, R: int, cycles: seq<CycleReport>,
                      kinds: seq<Kind>, stats: Tally, R': int)
    requires Tiled(replies, a, cycles) && Next(cycles) <= |replies|
    requires Silenced(replies, R0, R, cycles) && Bounds(replies, R0, R, cycles)
    requires CycleOutcome(a, R, replies[Next(cycles)..], kinds, stats, Finished, R')
    ensures var r := CycleReport(Next(cycles), R, kinds, stats);
      && Tiled(replies, a, cycles + [r])
      && Next(cycles + [r]) == Next(cycles) + |kinds| <= |replies|
      && Silenced(replies, R0, R', cycles + [r])
      && Bounds(replies, R0, R', cycles + [r])
  {
    var next := Next(cycles);
    var r := CycleReport(next, R, kinds, stats);
    assert replies[next..][..|kinds|] == Segment(replies, r);
    if R < 0 {
      NegativeBoundSendsNothing(R, replies[next..]);
    }
    TiledAppend(replies, a, cycles, r);
    SilencedAppend(replies, R0, R, cycles, r, R');
    BoundsAppend(replies, R0, R, cycles, r, R');
  }

  /** The first completed cycle of a run starts with the configured bound:
      with R0 > 0 requests per child and no interrupt or failed creation
      among the first R0 replies, it sends exactly R0 requests. */
  lemma FirstCycleSendsBound(replies: seq<Reply>, a: int, R0: int, R: int, cycles: seq<CycleReport>)
    requires Tiled(replies, a, cycles) && Bounds(replies, R0, R, cycles)
    requires |cycles| > 0 && 0 < R0 <= |replies| && Quiet(replies, R0)
    ensures |cycles[0].kinds| == R0
  {
    assert cycles[0].start == 0 && Reports(replies, a, cycles[0]);
    assert cycles[0].bound == R0;
    assert replies[0..] == replies;
    BoundedCycle(R0, replies);
  }

  class Punisher {
    var requestsPerChild: int
    var concurrency: int
    var verbosity: int
    var startoverIntervall: Interval
    var accessToAccountingRatio: int
    var servers: seq<Endpoint>

    /** `new self`: the property defaults. */
    constructor ()
      ensures requestsPerChild == 1000 && concurrency == 10 && verbosity == 0
      ensures startoverIntervall == Unset && accessToAccountingRatio == 50 && servers == []
    {
      requestsPerChild := 1000;
      concurrency := 10;
      verbosity := 0;
      startoverIntervall := Unset;
      accessToAccountingRatio := 50;
      servers := [];
    }

    /** `addServer`: appends one endpoint; the earlier ones stay as they were. */
    method AddServer(host: Scalar, secret: Option<Scalar>, timeout: Option<Scalar>, maxTries: Option<Scalar>)
      modifies this`servers
      ensures servers == old(servers) + [Endpoint(host, secret, timeout, maxTries)]
    {
      servers := servers + [Endpoint(host, secret, timeout, maxTries)];
    }

    /** The host loop of `factory`: one `addServer` per host, in host order. */
    method AddServers(h: Option<Value>, s: Option<Value>, t: Option<Value>, m: Option<Value>)
      modifies this`servers
      ensures servers == old(servers) + Pool(h, s, t, m)
    {
      var hosts := HostList(h);
      var i := 0;
      while i < |hosts|
        invariant 0 <= i <= |hosts|
        invariant servers == old(servers) + Pool(h, s, t, m)[..i]
      {
        AddServer(hosts[i], Pick(s, i), Pick(t, i), Pick(m, i));
        assert Pool(h, s, t, m)[..i + 1] == Pool(h, s, t, m)[..i] + [Pool(h, s, t, m)[i]];
        i := i + 1;
      }
      assert Pool(h, s, t, m)[..|hosts|] == Pool(h, s, t, m);
    }

    /** The server part of `factory`: look up `-h`, `-s`, `-t`, `-m` with
        `getOption` (whose `parseOptions` collects the defaults first) and add
        the endpoints; a lookup whose `array_merge` fails adds nothing. */
    method ConfigureServers(opts: map<string, Value>) returns (ok: bool)
      modifies this`servers
      ensures var d := DefaultsOf(Table);
        var h := GetOption(opts, Table, d, "h");
        var s := GetOption(opts, Table, d, "s");
        var t := GetOption(opts, Table, d, "t");
        var m := GetOption(opts, Table, d, "m");
        && (ok <==> !(h.MergeError? || s.MergeError? || t.MergeError? || m.MergeError?))
        && servers == if ok then old(servers) + Pool(AsValue(h), AsValue(s), AsValue(t), AsValue(m)) else old(servers)
    {
      var _, _, defaults := CollectOptions(Table);
      var h := GetOption(opts, Table, defaults, "h");
      var s := GetOption(opts, Table, defaults, "s");
      var t := GetOption(opts, Table, defaults, "t");
      var m := GetOption(opts, Table, defaults, "m");
      ok := !(h.MergeError? || s.MergeError? || t.MergeError? || m.MergeError?);
      if ok {
        AddServers(AsValue(h), AsValue(s), AsValue(t), AsValue(m));
      }
    }

    /** `interrupt`, the SIGINT handler: the loop guard becomes false. */
    method Interrupt()
      modifies this`requestsPerChild
      ensures requestsPerChild == -1
      // implied by the frame; stated so that `RunCycle` sees the ratio kept
      ensures accessToAccountingRatio == old(accessToAccountingRatio)
    {
      requestsPerChild := -1;
    }

    /** One loop cycle of `send`: a fresh threshold and fresh `$stats`, then
        the request loop. `accounting` counts the Accounting requests sent so
        far, which determines `$state` (`Threshold(a, accounting)`), so the
        branch is taken with `NextKind` (`ChooseAccessIsThresholdTest`). */
    method RunCycle(replies: seq<Reply>) returns (kinds: seq<Kind>, stats: Tally, end: CycleEnd)
      modifies this`requestsPerChild
      ensures CycleOutcome(accessToAccountingRatio, old(requestsPerChild), replies, kinds, stats, end, requestsPerChild)
    {
      var a := accessToAccountingRatio;
      ghost var R := requestsPerChild;
      ghost var intr := false;
      kinds, stats, end := [], Fresh(), Finished;
      var i := 1;
      var accounting := 0;
      CycleStateStart(a, R, replies);
      while requestsPerChild == 0 || i <= requestsPerChild
        invariant a == accessToAccountingRatio
        invariant CycleState(a, R, replies, i, kinds, accounting, stats, intr, requestsPerChild)
        decreases |replies| - (i - 1)
      {
        CycleStateGuard(a, R, replies, i, kinds, accounting, stats, intr, requestsPerChild);
        if i - 1 == |replies| {
          end := Starved;
          CycleStateStarved(a, R, replies, i, kinds, accounting, stats, intr, requestsPerChild);
          return;
        }
        var kind := NextKind(a, i, accounting);
        match replies[i - 1]
        case CreateFailed =>
          end := Aborted;
          CycleStateAborted(a, R, replies, i, kinds, accounting, stats, intr, requestsPerChild);
          return;
        case Answered(result, interrupted) =>
          ghost var kinds0, accounting0, stats0, rpc0 := kinds, accounting, stats, requestsPerChild;
          stats := Record(stats, StatKey(result));
          kinds := kinds + [kind];
          if kind == Accounting {
            accounting := accounting + 1;
          }
          if interrupted {
            Interrupt();
          }
          intr := interrupted;
          CycleStateStep(a, R, replies, i, kinds0, accounting0, stats0, rpc0, kinds, accounting, stats,
                         intr, requestsPerChild);
          i := i + 1;
      }
      CycleStateDone(a, R, replies, i, kinds, accounting, stats, intr, requestsPerChild);
    }

    /** `send`: loop cycles inside `do { ... } while ($this->startover())`,
        observed over at most `horizon` cycles. */
    method Send(replies: seq<Reply>, horizon: nat) returns (cycles: seq<CycleReport>, end: RunEnd)
      modifies this`requestsPerChild
      ensures |cycles| <= horizon
      ensures Tiled(replies, accessToAccountingRatio, cycles)
      // startover is consulted after every completed cycle
      ensures Startover(startoverIntervall).Stop? ==> |cycles| <= 1 && (end == Returned <==> |cycles| == 1)
      ensures !Startover(startoverIntervall).Stop? ==> end != Returned
      // a run that neither returned nor reached the horizon is inside a cycle
      // that aborted or is still sending
      ensures end != Returned && |cycles| < horizon ==>
        Next(cycles) <= |replies| &&
        CyclePlan(requestsPerChild, replies[Next(cycles)..]).end == (if end == Crashed then Aborted else Starved)
      // a crash is only ever reported for a cycle that aborted
      ensures end == Crashed ==> |cycles| < horizon
      // after an interrupt no cycle sends anything
      ensures Silenced(replies, old(requestsPerChild), requestsPerChild, cycles)
      // each cycle ran under `requestsPerChild` as it was when the cycle began
      ensures Bounds(replies, old(requestsPerChild), requestsPerChild, cycles)
    {
      cycles := [];
      end := Running;
      var next := 0;
      while |cycles| < horizon
        invariant |cycles| <= horizon
        invariant next == Next(cycles) && next <= |replies|
        invariant Tiled(replies, accessToAccountingRatio, cycles)
        invariant Silenced(replies, old(requestsPerChild), requestsPerChild, cycles)
        invariant Bounds(replies, old(requestsPerChild), requestsPerChild, cycles)
        invariant |cycles| > 0 ==> !Startover(startoverIntervall).Stop?
        invariant end == Running
        decreases horizon - |cycles|
      {
        var before := requestsPerChild;
        var kinds, stats, cycleEnd := RunCycle(replies[next..]);
        if cycleEnd != Finished {
          end := if cycleEnd == Aborted then Crashed else Running;
          return;
        }
        var report := CycleReport(next, before, kinds, stats);
        CycleAppended(replies, accessToAccountingRatio, old(requestsPerChild), before, cycles, kinds, stats, requestsPerChild);
        cycles := cycles + [report];
        next := next + |kinds|;
        if !StartsOver(Startover(startoverIntervall)) {
          end := Returned;
          return;
        }
      }
    }
  }
}

=== FILE: restart.dfy ===
/** The startover policy, `RadiusPunisher::startover`. */
module Restart {

  /** `$startoverIntervall`: `null` until the `-i` option sets it. */
  datatype Interval = Unset | Seconds(n: int)

  /** What `startover` decides after a completed loop cycle. The waiting
      itself (`sleep`) is not modelled, only its duration. */
  datatype Decision = Stop | RestartNow | RestartAfter(seconds: int)

  /** The `switch` compares loosely, so an unset interval (`null == 0`)
      takes the `case 0` branch: stop. -1 restarts at once; any other value
      restarts after that many seconds. */
  function Startover(interval: Interval): (d: Decision)
    ensures d.Stop? <==> interval == Unset || interval == Seconds(0)
    ensures d == RestartNow <==> interval == Seconds(-1)
    ensures d.RestartAfter? <==> interval.Seconds? && interval.n != 0 && interval.n != -1
    ensures d.RestartAfter? ==> d.seconds == interval.n
  {
    match interval
    case Unset => Stop
    case Seconds(n) =>
      if n == 0 then Stop
      else if n == -1 then RestartNow
      else RestartAfter(n)
  }

  /** The boolean `startover()` returns: whether `send` begins another cycle. */
  predicate StartsOver(d: Decision) {
    !d.Stop?
  }
}

=== FILE: scheduler.dfy ===
/** The Access/Accounting mix of one loop cycle of `RadiusPunisher::send`.

    The source keeps a float `$ratio = 100/(100-a)` and a float threshold
    `$state`, which starts at `$ratio` and grows by `$ratio` with every
    Accounting request. After k Accounting requests the threshold is
    (k+1)*100/(100-a), so "i < $state" is decided here exactly by
    cross-multiplication. */
module Scheduler {

  datatype Kind = Access | Accounting

  /** `$ratio` is non-zero: the percentage is neither 0 nor 100. */
  predicate PeriodEnabled(a: int) {
    a != 0 && a != 100
  }

  /** x * y, spelled out as repeated addition so that the solver meets
      products only where a lemma asks for them (`ProductIsMul`). */
  function Product(x: nat, y: int): int {
    if x == 0 then 0 else Product(x - 1, y) + y
  }

  lemma {:induction false} ProductIsMul(x: nat, y: int)
    ensures Product(x, y) == x * y
  {
    if x > 0 {
      ProductIsMul(x - 1, y);
    }
  }

  /** The request in iteration `i` (1-based) is an Access request, given that
      `k` Accounting requests were sent before it in this cycle:
      `$ratio && $i < $state` with `$state == (k+1) * 100/(100-a)`,
      multiplied out by 100-a (which flips the comparison when 100-a < 0). */
  predicate ChooseAccess(a: int, i: nat, k: nat) {
    PeriodEnabled(a) &&
    var d := 100 - a;
    if d > 0 then Product(i, d) < Product(k + 1, 100) else Product(i, d) > Product(k + 1, 100)
  }

  /** The same decision in plain arithmetic. */
  lemma ChooseAccessMul(a: int, i: nat, k: nat)
    ensures ChooseAccess(a, i, k) <==>
      PeriodEnabled(a) && (if 100 - a > 0 then i * (100 - a) < (k + 1) * 100 else i * (100 - a) > (k + 1) * 100)
  {
    ProductIsMul(i, 100 - a);
    ProductIsMul(k + 1, 100);
  }

  /** `$ratio`: 100/(100-a), or 0 when the percentage is 0 or 100. Reals
      are exact; PHP's floats are not (see README). */
  function Ratio(a: int): real {
    if PeriodEnabled(a) then 100.0 / ((100 - a) as real) else 0.0
  }

  /** `$state` after `k` Accounting requests: it starts at `$ratio` and
      every Accounting request adds `$ratio` to it. */
  function Threshold(a: int, k: nat): real {
    if k == 0 then Ratio(a) else Threshold(a, k - 1) + Ratio(a)
  }

  lemma {:induction false} ThresholdIsMultiple(a: int, k: nat)
    ensures Threshold(a, k) == ((k + 1) as real) * Ratio(a)
  {
    if k > 0 {
      ThresholdIsMultiple(a, k - 1);
    }
  }

  /** Multiplying both sides of `x < t` by a non-zero `d`, where t * d == m. */
  lemma CrossMultiply(x: real, t: real, d: real, m: real)
    requires d != 0.0 && t * d == m
    ensures d > 0.0 ==> (x < t <==> x * d < m)
    ensures d < 0.0 ==> (x < t <==> x * d > m)
  {
    assert (t - x) * d == m - x * d;
    if d > 0.0 {
      assert t - x > 0.0 <==> (t - x) * d > 0.0;
    } else {
      assert t - x > 0.0 <==> (t - x) * d < 0.0;
    }
  }

  lemma QuotientTimes(n: real, d: real, c: real)
    requires d != 0.0
    ensures (c * (n / d)) * d == c * n
  {
    assert (n / d) * d == n;
  }

  lemma CastProduct(x: int, y: int)
    ensures (x * y) as real == (x as real) * (y as real)
  {
  }

  /** `x < c * (n / d)` compared by cross-multiplication, over integers
      `p` and `q` standing for x * d and c * n. */
  lemma CompareQuotient(x: real, c: real, n: real, d: real, p: int, q: int)
    requires d != 0.0 && p as real == x * d && q as real == c * n
    ensures d > 0.0 ==> (x < c * (n / d) <==> p < q)
    ensures d < 0.0 ==> (x < c * (n / d) <==> p > q)
  {
    QuotientTimes(n, d, c);
    CrossMultiply(x, c * (n / d), d, c * n);
  }

  /** For a percentage other than 0 and 100, `$i < $state` after `k`
      Accounting requests, cross-multiplied by 100-a. */
  lemma EnabledThresholdTest(a: int, i: nat, k: nat)
    requires PeriodEnabled(a)
    ensures var p, q := i * (100 - a), (k + 1) * 100;
      (i as real) < ((k + 1) as real) * Ratio(a) <==> if 100 - a > 0 then p < q else p > q
  {
    var d := (100 - a) as real;
    CastProduct(i, 100 - a);
    CastProduct(k + 1, 100);
    CompareQuotient(i as real, (k + 1) as real, 100.0, d, i * (100 - a), (k + 1) * 100);
  }

  /** The source's test `$ratio && $i < $state`, with `$state` after `k`
      Accounting requests, is exactly `ChooseAccess`. */
  lemma ChooseAccessIsThresholdTest(a: int, i: nat, k: nat)
    ensures ChooseAccess(a, i, k) <==> Ratio(a) != 0.0 && (i as real) < Threshold(a, k)
  {
    ThresholdIsMultiple(a, k);
    ChooseAccessMul(a, i, k);
    if PeriodEnabled(a) {
      assert Ratio(a) != 0.0;
      EnabledThresholdTest(a, i, k);
    }
  }

  /** The kind of the request in iteration `i` after `k` Accounting requests. */
  function NextKind(a: int, i: nat, k: nat): Kind {
    if ChooseAccess(a, i, k) then Access else Accounting
  }

  /** One iteration `i` of the request loop as the source makes it, from the
      kinds so far and `$state`: with `$i < $state` an Access request,
      otherwise an Accounting request, which adds `$ratio` to `$state`. */
  function ThresholdStep(a: int, i: nat, ks: seq<Kind>, state: real): (seq<Kind>, real) {
    if Ratio(a) != 0.0 && (i as real) < state then (ks + [Access], state)
    else (ks + [Accounting], state + Ratio(a))
  }

  /** The request loop's choices with `$state` kept exactly: the kinds of
      the first `n` requests and `$state` after them; `$state` starts at
      `$ratio`. */
  function ThresholdRun(a: int, n: nat): (seq<Kind>, real) {
    if n == 0 then ([], Ratio(a))
    else
      var prev := ThresholdRun(a, n - 1);
      ThresholdStep(a, n, prev.0, prev.1)
  }

  /** How many entries of `ks` are `kind`. */
  function Count(ks: seq<Kind>, kind: Kind): (n: nat)
    ensures n <= |ks|
  {
    if |ks| == 0 then 0
    else Count(ks[..|ks| - 1], kind) + (if ks[|ks| - 1] == kind then 1 else 0)
  }

  /** The kinds of the first `n` requests of a cycle. */
  function Schedule(a: int, n: nat): (ks: seq<Kind>)
    ensures |ks| == n
  {
    if n == 0 then []
    else
      var prev := Schedule(a, n - 1);
      prev + [NextKind(a, n, Count(prev, Accounting))]
  }

  lemma {:induction false} CountSplit(ks: seq<Kind>)
    ensures Count(ks, Access) + Count(ks, Accounting) == |ks|
  {
    if |ks| > 0 {
      CountSplit(ks[..|ks| - 1]);
    }
  }

  lemma PrefixOfAppend(ks: seq<Kind>, k: Kind, m: nat)
    requires m <= |ks|
    ensures (ks + [k])[..m] == ks[..m]
  {
  }

  /** The schedule of a longer cycle starts with the schedule of a shorter one. */
  lemma {:induction false} SchedulePrefix(a: int, m: nat, n: nat)
    requires m <= n
    ensures Schedule(a, n)[..m] == Schedule(a, m)
  {
    if m == n {
      assert Schedule(a, n)[..m] == Schedule(a, n);
    } else {
      SchedulePrefix(a, m, n - 1);
      var prev := Schedule(a, n - 1);
      PrefixOfAppend(prev, NextKind(a, n, Count(prev, Accounting)), m);
    }
  }

  /** Outside 1..99, after i-1 Accounting requests the i-th is Accounting too:
      the threshold (k+1)*`$ratio` never exceeds i. */
  lemma NoAccessOutsideRange(a: int, i: nat)
    requires !(0 < a < 100) && i >= 1
    ensures !ChooseAccess(a, i, i - 1)
  {
    ChooseAccessMul(a, i, i - 1);
    var d := 100 - a;
    if PeriodEnabled(a) {
      if d > 0 {
        assert i * d - i * 100 == i * (d - 100);
      } else {
        assert i * d == -(i * (-d));
      }
    }
  }

  /** With a percentage outside 1..99 (in particular 0 and 100) every request
      of every cycle is an Accounting request. */
  lemma {:induction false} AllAccountingOutsideRange(a: int, n: nat)
    requires !(0 < a < 100)
    ensures Count(Schedule(a, n), Accounting) == n
    ensures Count(Schedule(a, n), Access) == 0
    ensures forall j :: 0 <= j < n ==> Schedule(a, n)[j] == Accounting
  {
    if n > 0 {
      AllAccountingOutsideRange(a, n - 1);
      NoAccessOutsideRange(a, n);
      assert NextKind(a, n, n - 1) == Accounting;
      CountSplit(Schedule(a, n));
    }
  }

  lemma DivideBy100(x: int, q: int)
    requires 100 * q <= x < 100 * q + 100
    ensures x / 100 == q
  {
  }

  /** Iteration n (1-based) after floor((n-1)*(100-a)/100) Accounting
      requests chooses Access exactly when that floor does not step up at n,
      and the floor steps up by at most one. */
  lemma ChooseAtFloor(a: int, n: nat)
    requires 0 < a < 100 && n >= 1
    ensures var d := 100 - a;
      var k := (n - 1) * d / 100;
      && (n * d / 100 == k || n * d / 100 == k + 1)
      && (ChooseAccess(a, n, k) <==> n * d / 100 == k)
  {
    var d := 100 - a;
    var k := (n - 1) * d / 100;
    assert 100 * k <= (n - 1) * d < 100 * k + 100;
    assert n * d == (n - 1) * d + d;
    ChooseAccessMul(a, n, k);
    if n * d < (k + 1) * 100 {
      DivideBy100(n * d, k);
    } else {
      DivideBy100(n * d, k + 1);
    }
  }

  lemma CountAppend(ks: seq<Kind>, k: Kind, kind: Kind)
    ensures Count(ks + [k], kind) == Count(ks, kind) + (if k == kind then 1 else 0)
  {
    assert (ks + [k])[..|ks|] == ks;
  }

  /** For 0 < a < 100 the number of Accounting requests among the first n
      of a cycle is exactly floor(n*(100-a)/100). */
  lemma {:induction false} AccountingCountExact(a: int, n: nat)
    requires 0 < a < 100
    ensures Count(Schedule(a, n), Accounting) == n * (100 - a) / 100
  {
    if n > 0 {
      AccountingCountExact(a, n - 1);
      ChooseAtFloor(a, n);
      var prev := Schedule(a, n - 1);
      CountAppend(prev, NextKind(a, n, Count(prev, Accounting)), Accounting);
    }
  }

  /** For 0 < a < 100 the number of Access requests among the first n of a
      cycle is exactly ceil(n*a/100): the mix is within one request of a%. */
  lemma AccessCountExact(a: int, n: nat)
    requires 0 < a < 100
    ensures Count(Schedule(a, n), Access) == (n * a + 99) / 100
  {
    AccountingCountExact(a, n);
    CountSplit(Schedule(a, n));
    var q := n * (100 - a) / 100;
    assert 100 * q <= n * (100 - a) < 100 * q + 100;
    assert n * (100 - a) == 100 * n - n * a;
    DivideBy100(n * a + 99, n - q);
  }

  /** For 0 < a < 100, request j (0-based) of a cycle is an Accounting request
      exactly when floor(x*(100-a)/100) steps up between x = j and x = j+1. */
  lemma KindAt(a: int, n: nat, j: nat)
    requires 0 < a < 100 && j < n
    ensures Schedule(a, n)[j] == Accounting <==> (j + 1) * (100 - a) / 100 > j * (100 - a) / 100
  {
    SchedulePrefix(a, j + 1, n);
    assert Schedule(a, n)[j] == Schedule(a, j + 1)[j];
    assert Schedule(a, j + 1)[..j] == Schedule(a, j);
    AccountingCountExact(a, j);
    AccountingCountExact(a, j + 1);
  }

  /** At 50% the kinds alternate, starting with Access. */
  lemma Alternation(n: nat, j: nat)
    requires j < n
    ensures Schedule(50, n)[j] == if j % 2 == 0 then Access else Accounting
  {
    KindAt(50, n, j);
    assert (j + 1) * 50 / 100 == (j + 1) / 2;
    assert j * 50 / 100 == j / 2;
  }

  /** Four requests at 50%: Access, Accounting, Access, Accounting. */
  lemma FourAtHalf()
    ensures Schedule(50, 4) == [Access, Accounting, Access, Accounting]
  {
    Alternation(4, 0);
    Alternation(4, 1);
    Alternation(4, 2);
    Alternation(4, 3);
  }

  /** An iteration taken with `$state` at the threshold for `k` Accounting
      requests picks `NextKind` and leaves the threshold for the new count. */
  lemma ThresholdStepAgrees(a: int, i: nat, k: nat, ks: seq<Kind>, state: real)
    requires state == Threshold(a, k)
    ensures ThresholdStep(a, i, ks, state) ==
      (ks + [NextKind(a, i, k)], Threshold(a, if NextKind(a, i, k) == Accounting then k + 1 else k))
  {
    ChooseAccessIsThresholdTest(a, i, k);
  }

  /** The source's threshold loop and `Schedule` choose the same kinds, and
      its `$state` after n requests is the threshold for the number of
      Accounting requests among them. */
  lemma {:induction false} ThresholdRunIsSchedule(a: int, n: nat)
    ensures ThresholdRun(a, n).0 == Schedule(a, n)
    ensures ThresholdRun(a, n).1 == Threshold(a, Count(Schedule(a, n), Accounting))
  {
    if n > 0 {
      ThresholdRunIsSchedule(a, n - 1);
      var prev := Schedule(a, n - 1);
      var k := Count(prev, Accounting);
      ThresholdStepAgrees(a, n, k, prev, ThresholdRun(a, n - 1).1);
      CountAppend(prev, NextKind(a, n, k), Accounting);
    }
  }
}

=== FILE: serverpool.dfy ===
/** The RADIUS endpoints that `RadiusPunisher::factory` builds from the
    `-h`, `-s`, `-t` and `-m` options. */
module ServerPool {
  import opened PhpValues

  /** The object `addServer` appends: host, secret, timeout, max tries.
      A `None` part is a `null` the factory passed on. */
  datatype Endpoint = Endpoint(host: Scalar, secret: Option<Scalar>, timeout: Option<Scalar>, maxTries: Option<Scalar>)

  /** `(array) $srv`: no hosts for `null`, one for a scalar, the list itself
      for a repeated option. */
  function HostList(v: Option<Value>): (hosts: seq<Scalar>)
    ensures v.None? ==> hosts == []
    ensures v.Some? && v.value.One? ==> hosts == [v.value.x]
    ensures v.Some? && v.value.Many? ==> hosts == v.value.xs
  {
    match v
    case None => []
    case Some(One(x)) => [x]
    case Some(Many(xs)) => xs
  }

  /** The secret, timeout or max tries for the host at position `i`: a scalar
      applies to every host; from a list, element `i`, or element 0 when
      there is no element `i` (`null` when there is no element 0 either). */
  function Pick(v: Option<Value>, i: nat): Option<Scalar> {
    match v
    case None => None
    case Some(One(x)) => Some(x)
    case Some(Many(xs)) => if i < |xs| then Some(xs[i]) else if |xs| > 0 then Some(xs[0]) else None
  }

  /** The endpoints the host loop of `factory` adds, in host order. */
  function Pool(h: Option<Value>, s: Option<Value>, t: Option<Value>, m: Option<Value>): (pool: seq<Endpoint>)
    ensures |pool| == |HostList(h)|
  {
    var hosts := HostList(h);
    seq(|hosts|, i requires 0 <= i < |hosts| => Endpoint(hosts[i], Pick(s, i), Pick(t, i), Pick(m, i)))
  }

  /** One endpoint per host, in host order. */
  lemma PoolFollowsHosts(h: Option<Value>, s: Option<Value>, t: Option<Value>, m: Option<Value>)
    ensures |Pool(h, s, t, m)| == |HostList(h)|
    ensures forall i :: 0 <= i < |HostList(h)| ==> Pool(h, s, t, m)[i].host == HostList(h)[i]
  {
  }

  /** A scalar secret, timeout or max-tries value is given to every endpoint. */
  lemma ScalarBroadcast(h: Option<Value>, x: Scalar, t: Option<Value>, m: Option<Value>)
    ensures forall i :: 0 <= i < |Pool(h, Some(One(x)), t, m)| ==> Pool(h, Some(One(x)), t, m)[i].secret == Some(x)
    ensures forall i :: 0 <= i < |Pool(h, t, Some(One(x)), m)| ==> Pool(h, t, Some(One(x)), m)[i].timeout == Some(x)
    ensures forall i :: 0 <= i < |Pool(h, t, m, Some(One(x)))| ==> Pool(h, t, m, Some(One(x)))[i].maxTries == Some(x)
  {
  }

  /** A list of secrets, timeouts or max-tries is aligned with the hosts by
      position; a host beyond its end gets the list's first element. */
  lemma ListAligned(h: Option<Value>, xs: seq<Scalar>, t: Option<Value>, m: Option<Value>, i: nat)
    requires i < |HostList(h)|
    ensures Pool(h, Some(Many(xs)), t, m)[i].secret ==
      if i < |xs| then Some(xs[i]) else if |xs| > 0 then Some(xs[0]) else None
    ensures Pool(h, t, Some(Many(xs)), m)[i].timeout ==
      if i < |xs| then Some(xs[i]) else if |xs| > 0 then Some(xs[0]) else None
    ensures Pool(h, t, m, Some(Many(xs)))[i].maxTries ==
      if i < |xs| then Some(xs[i]) else if |xs| > 0 then Some(xs[0]) else None
  {
  }

  /** A one-element list behaves exactly like that element given as a scalar. */
  lemma SingletonIsScalar(x: Scalar, i: nat)
    ensures Pick(Some(Many([x])), i) == Pick(Some(One(x)), i)
  {
  }

  /** A list with an element for every host gives host i its element i. */
  lemma FullListZips(h: Option<Value>, xs: seq<Scalar>, t: Option<Value>, m: Option<Value>)
    requires |xs| >= |HostList(h)|
    ensures forall i :: 0 <= i < |HostList(h)| ==> Pool(h, Some(Many(xs)), t, m)[i].secret == Some(xs[i])
    ensures forall i :: 0 <= i < |HostList(h)| ==> Pool(h, t, Some(Many(xs)), m)[i].timeout == Some(xs[i])
    ensures forall i :: 0 <= i < |HostList(h)| ==> Pool(h, t, m, Some(Many(xs)))[i].maxTries == Some(xs[i])
  {
  }

  /** Two hosts and a single secret: both endpoints use that secret, whether
      `getopt` returned it as a scalar (one `-s`) or as a one-element list. */
  lemma TwoHostsOneSecret(h0: Scalar, h1: Scalar, s0: Scalar, t: Option<Value>, m: Option<Value>)
    ensures var pool := Pool(Some(Many([h0, h1])), Some(One(s0)), t, m);
      |pool| == 2 && pool[0].host == h0 && pool[1].host == h1 &&
      pool[0].secret == Some(s0) && pool[1].secret == Some(s0)
    ensures var pool := Pool(Some(Many([h0, h1])), Some(Many([s0])), t, m);
      |pool| == 2 && pool[0].host == h0 && pool[1].host == h1 &&
      pool[0].secret == Some(s0) && pool[1].secret == Some(s0)
  {
  }
}

=== FILE: stats.dfy ===
/** The per-cycle `$stats` array of `RadiusPunisher::send` and the summary
    that `debugStats` reports for it.

    `$stats` is a PHP array: an ordered map. It starts as `array(0,0,0,0,0,0)`
    (codes 0..5 in that order); `++$stats[$code]` on a code not yet present
    appends that code with count 1. */
module Stats {
  import opened PhpValues

  /** An ordered map from completion code to count: `order` is the key order. */
  datatype Tally = Tally(order: seq<nat>, counts: map<nat, nat>)

  ghost predicate Distinct(s: seq<nat>) {
    forall i, j :: 0 <= i < j < |s| ==> s[i] != s[j]
  }

  /** Each key appears once in the order and the order lists exactly the keys. */
  ghost predicate Valid(t: Tally) {
    Distinct(t.order) && forall c :: c in t.counts <==> c in t.order
  }

  /** The count of code `c`; an absent code counts as zero. */
  function CountOf(t: Tally, c: nat): nat {
    if c in t.counts then t.counts[c] else 0
  }

  /** `array(0, 0, 0, 0, 0, 0)`, the tally at the start of every cycle. */
  function Fresh(): Tally {
    var order := [0, 1, 2, 3, 4, 5];
    Tally(order, map c | c in order :: 0)
  }

  /** `++$stats[$code]` */
  function Record(t: Tally, code: nat): Tally {
    if code in t.counts then Tally(t.order, t.counts[code := t.counts[code] + 1])
    else Tally(t.order + [code], t.counts[code := 1])
  }

  function SumOver(keys: seq<nat>, counts: map<nat, nat>): nat {
    if |keys| == 0 then 0
    else SumOver(keys[..|keys| - 1], counts) + (if keys[|keys| - 1] in counts then counts[keys[|keys| - 1]] else 0)
  }

  /** `array_sum($stats)` */
  function Total(t: Tally): nat {
    SumOver(t.order, t.counts)
  }

  /** The tally of a cycle whose sends returned `codes`, in order. */
  function TallyOf(codes: seq<nat>): Tally {
    if |codes| == 0 then Fresh() else Record(TallyOf(codes[..|codes| - 1]), codes[|codes| - 1])
  }

  function Occurrences(codes: seq<nat>, c: nat): nat {
    if |codes| == 0 then 0
    else Occurrences(codes[..|codes| - 1], c) + (if codes[|codes| - 1] == c then 1 else 0)
  }

  lemma {:induction false} SumOverAbsent(keys: seq<nat>, counts: map<nat, nat>, c: nat, v: nat)
    requires c !in keys
    ensures SumOver(keys, counts[c := v]) == SumOver(keys, counts)
  {
    if |keys| > 0 {
      SumOverAbsent(keys[..|keys| - 1], counts, c, v);
    }
  }

  lemma {:induction false} SumOverBump(keys: seq<nat>, counts: map<nat, nat>, c: nat)
    requires Distinct(keys) && c in keys && c in counts
    ensures SumOver(keys, counts[c := counts[c] + 1]) == SumOver(keys, counts) + 1
  {
    var init := keys[..|keys| - 1];
    assert Distinct(init);
    if keys[|keys| - 1] == c {
      assert c !in init;
      SumOverAbsent(init, counts, c, counts[c] + 1);
    } else {
      assert c in init;
      SumOverBump(init, counts, c);
    }
  }

  /** Recording a code keeps the tally well formed, keeps the earlier key
      order, adds one to that code and nothing to any other, and raises the
      total by exactly one. */
  lemma RecordAddsOne(t: Tally, code: nat)
    requires Valid(t)
    ensures Valid(Record(t, code))
    ensures |Record(t, code).order| >= |t.order| && Record(t, code).order[..|t.order|] == t.order
    ensures forall c :: CountOf(Record(t, code), c) == CountOf(t, c) + (if c == code then 1 else 0)
    ensures Total(Record(t, code)) == Total(t) + 1
  {
    if code in t.counts {
      RecordPresent(t, code);
    } else {
      RecordAbsent(t, code);
    }
  }

  lemma RecordPresent(t: Tally, code: nat)
    requires Valid(t) && code in t.counts
    ensures Valid(Record(t, code))
    ensures |Record(t, code).order| >= |t.order| && Record(t, code).order[..|t.order|] == t.order
    ensures forall c :: CountOf(Record(t, code), c) == CountOf(t, c) + (if c == code then 1 else 0)
    ensures Total(Record(t, code)) == Total(t) + 1
  {
    var r := Record(t, code);
    assert r == Tally(t.order, t.counts[code := t.counts[code] + 1]);
    assert r.order[..|t.order|] == t.order;
    SumOverBump(t.order, t.counts, code);
  }

  lemma RecordAbsent(t: Tally, code: nat)
    requires Valid(t) && code !in t.counts
    ensures Valid(Record(t, code))
    ensures |Record(t, code).order| >= |t.order| && Record(t, code).order[..|t.order|] == t.order
    ensures forall c :: CountOf(Record(t, code), c) == CountOf(t, c) + (if c == code then 1 else 0)
    ensures Total(Record(t, code)) == Total(t) + 1
  {
    var order' := t.order + [code];
    var counts' := t.counts[code := 1];
    assert Record(t, code) == Tally(order', counts');
    DistinctAppend(t.order, code);
    assert order'[..|t.order|] == t.order;
    SumOverAppend(t.order, t.counts, code);
    forall c ensures CountOf(Record(t, code), c) == CountOf(t, c) + (if c == code then 1 else 0) {
      if c != code {
        assert (c in counts') == (c in t.counts);
      }
    }
  }

  lemma DistinctAppend(s: seq<nat>, x: nat)
    requires Distinct(s) && x !in s
    ensures Distinct(s + [x])
  {
  }

  lemma SumOverAppend(keys: seq<nat>, counts: map<nat, nat>, code: nat)
    requires code !in keys
    ensures SumOver(keys + [code], counts[code := 1]) == SumOver(keys, counts) + 1
  {
    assert (keys + [code])[..|keys|] == keys;
    SumOverAbsent(keys, counts, code, 1);
  }

  lemma {:induction false} SumOverZero(keys: seq<nat>, counts: map<nat, nat>)
    requires forall c :: c in counts ==> counts[c] == 0
    ensures SumOver(keys, counts) == 0
  {
    if |keys| > 0 {
      SumOverZero(keys[..|keys| - 1], counts);
    }
  }

  lemma FreshKeys()
    ensures forall c: nat :: c in Fresh().counts <==> c <= 5
    ensures forall c: nat :: c in Fresh().order <==> c <= 5
  {
    var f := Fresh();
    forall c: nat | c <= 5 ensures c in f.counts && c in f.order {
      assert c == 0 || c == 1 || c == 2 || c == 3 || c == 4 || c == 5;
    }
  }

  lemma FreshDistinct()
    ensures Distinct(Fresh().order)
  {
    var o := Fresh().order;
    forall i, j | 0 <= i < j < |o| ensures o[i] != o[j] {
      assert o[i] == i && o[j] == j;
    }
  }

  lemma FreshShape()
    ensures Valid(Fresh()) && Total(Fresh()) == 0
    ensures forall c :: CountOf(Fresh(), c) == 0
    ensures forall c: nat :: c in Fresh().counts <==> c <= 5
  {
    var f := Fresh();
    SumOverZero(f.order, f.counts);
    FreshKeys();
    FreshDistinct();
  }

  lemma OccurrencesStep(codes: seq<nat>, c: nat)
    requires |codes| > 0
    ensures Occurrences(codes, c) ==
      Occurrences(codes[..|codes| - 1], c) + (if codes[|codes| - 1] == c then 1 else 0)
  {
  }

  /** The tally of a cycle is well formed and starts with codes 0..5. */
  lemma {:induction false} TallyShape(codes: seq<nat>)
    ensures Valid(TallyOf(codes))
    ensures |TallyOf(codes).order| >= 6 && TallyOf(codes).order[..6] == [0, 1, 2, 3, 4, 5]
  {
    if |codes| == 0 {
      FreshShape();
    } else {
      var init := codes[..|codes| - 1];
      TallyShape(init);
      var prev := TallyOf(init);
      var next := Record(prev, codes[|codes| - 1]);
      RecordAddsOne(prev, codes[|codes| - 1]);
      PrefixOfPrefix(next.order, prev.order, 6);
    }
  }

  lemma PrefixOfPrefix(s: seq<nat>, t: seq<nat>, k: nat)
    requires |t| <= |s| && s[..|t|] == t && k <= |t|
    ensures s[..k] == t[..k]
  {
    assert s[..k] == s[..|t|][..k];
  }

  /** The tally of a cycle holds, for every code, the number of sends that
      returned that code, and its keys are 0..5 and the codes that occurred. */
  lemma {:induction false} TallyCounts(codes: seq<nat>)
    ensures forall c :: CountOf(TallyOf(codes), c) == Occurrences(codes, c)
    ensures forall c :: c in TallyOf(codes).counts <==> c <= 5 || Occurrences(codes, c) > 0
  {
    if |codes| == 0 {
      FreshShape();
    } else {
      var init := codes[..|codes| - 1];
      TallyShape(init);
      TallyCounts(init);
      var prev := TallyOf(init);
      RecordAddsOne(prev, codes[|codes| - 1]);
      forall c ensures CountOf(TallyOf(codes), c) == Occurrences(codes, c)
                    && (c in TallyOf(codes).counts <==> c <= 5 || Occurrences(codes, c) > 0) {
        OccurrencesStep(codes, c);
      }
    }
  }

  /** The total of the tally of a cycle is the number of sends. */
  lemma {:induction false} TallyTotal(codes: seq<nat>)
    ensures Total(TallyOf(codes)) == |codes|
  {
    if |codes| == 0 {
      FreshShape();
    } else {
      var init := codes[..|codes| - 1];
      TallyShape(init);
      TallyTotal(init);
      RecordAddsOne(TallyOf(init), codes[|codes| - 1]);
    }
  }

  /** The tally of a cycle is well formed; it always starts with codes 0..5;
      it holds, for every code, the number of sends that returned that code;
      and its total is the number of sends. */
  lemma TallyOfCounts(codes: seq<nat>)
    ensures Valid(TallyOf(codes))
    ensures |TallyOf(codes).order| >= 6 && TallyOf(codes).order[..6] == [0, 1, 2, 3, 4, 5]
    ensures forall c :: CountOf(TallyOf(codes), c) == Occurrences(codes, c)
    ensures forall c :: c in TallyOf(codes).counts <==> c <= 5 || Occurrences(codes, c) > 0
    ensures Total(TallyOf(codes)) == |codes|
  {
    TallyShape(codes);
    TallyCounts(codes);
    TallyTotal(codes);
  }

  /** One item of the `debugStats` message. */
  datatype Entry = Completed(total: nat) | Failures(count: nat) | Rc(code: nat, count: nat)

  /** The item for code `c`: always `failures=` for code 0, `rcN=` for any
      other code only when its count is non-zero. */
  function EntryFor(c: nat, counts: map<nat, nat>): seq<Entry> {
    var n := if c in counts then counts[c] else 0;
    if c == 0 then [Failures(n)] else if n != 0 then [Rc(c, n)] else []
  }

  function Entries(keys: seq<nat>, counts: map<nat, nat>): seq<Entry> {
    if |keys| == 0 then [] else EntryFor(keys[0], counts) + Entries(keys[1..], counts)
  }

  /** The content of the `debugStats` message: the total first, then one item
      per code in array order. */
  function Summary(t: Tally): (r: seq<Entry>)
    ensures |r| >= 1 && r[0] == Completed(Total(t))
  {
    [Completed(Total(t))] + Entries(t.order, t.counts)
  }

  /** `debugStats($level, $stats)`: the message is produced only when the
      verbosity reaches the level. */
  function DebugStats(verbosity: int, level: int, t: Tally): (r: Option<seq<Entry>>)
    ensures r.Some? <==> verbosity >= level
    ensures r.Some? ==> r.value == Summary(t)
  {
    if verbosity >= level then Some(Summary(t)) else None
  }

  lemma {:induction false} EntriesReport(keys: seq<nat>, counts: map<nat, nat>)
    ensures forall n :: Completed(n) !in Entries(keys, counts)
    ensures forall n :: Failures(n) in Entries(keys, counts) <==> 0 in keys && n == (if 0 in counts then counts[0] else 0)
    ensures forall c, n :: Rc(c, n) in Entries(keys, counts) <==> c != 0 && c in keys && n == (if c in counts then counts[c] else 0) && n != 0
  {
    if |keys| > 0 {
      EntriesReport(keys[1..], counts);
      assert Entries(keys, counts) == EntryFor(keys[0], counts) + Entries(keys[1..], counts);
      assert forall c :: c in keys <==> c == keys[0] || c in keys[1..];
    }
  }

  /** What `debugStats` reports about a well-formed tally: the total once,
      `failures=` with the count of code 0, and `rcN=` exactly for the
      non-zero codes with a non-zero count, each with its count. */
  lemma SummaryReports(t: Tally)
    requires Valid(t)
    ensures forall n :: Completed(n) in Summary(t) <==> n == Total(t)
    ensures forall n :: Failures(n) in Summary(t) <==> 0 in t.counts && n == CountOf(t, 0)
    ensures forall c, n :: Rc(c, n) in Summary(t) <==> c != 0 && n == CountOf(t, c) && n != 0
  {
    EntriesReport(t.order, t.counts);
    assert Summary(t) == [Completed(Total(t))] + Entries(t.order, t.counts);
  }

  /** A tally whose first key is 0 reports `failures=` right after the total. */
  lemma SummaryHead(t: Tally)
    requires |t.order| >= 1 && t.order[0] == 0
    ensures |Summary(t)| >= 2 && Summary(t)[1] == Failures(CountOf(t, 0))
  {
    var rest := Entries(t.order, t.counts);
    assert rest == EntryFor(0, t.counts) + Entries(t.order[1..], t.counts);
    assert rest[0] == Failures(CountOf(t, 0));
    assert Summary(t) == [Completed(Total(t))] + rest;
  }

  /** The summary at the end of a cycle whose sends returned `codes`:
      "requests completed" is the number of sends, the failures item comes
      next and counts the failed sends (code 0), and `rcN=k` appears exactly
      when k > 0 sends returned code N. */
  lemma CycleSummary(codes: seq<nat>)
    ensures |Summary(TallyOf(codes))| >= 2
    ensures Summary(TallyOf(codes))[0] == Completed(|codes|)
    ensures Summary(TallyOf(codes))[1] == Failures(Occurrences(codes, 0))
    ensures forall c, n :: Rc(c, n) in Summary(TallyOf(codes)) <==> c != 0 && n == Occurrences(codes, c) && n != 0
  {
    var t := TallyOf(codes);
    TallyOfCounts(codes);
    assert t.order[0] == t.order[..6][0] == 0;
    SummaryHead(t);
    SummaryReports(t);
  }
}
